=== FILE: README.md ===
# Employee365 API core: authentication, the user record, the query builder

A functional model in Dafny of the part of the Employee365 REST backend with
real logic:

- **The user record** (`UserModel`, `user_model.dfy`). It covers:
  - the schema's required paths, minimum password length, the
    confirmation check, the role enum and defaults;
  - the two pre-save hooks: hash the password, and record the change one
    second in the past;
  - the query hook that hides accounts whose `active` flag is `false`;
  - `changedPasswordAfter` and `createPasswordResetToken`.
- **The authentication controller** (`AuthController`,
  `auth_controller.dfy`). It covers:
  - token extraction (Bearer header before cookie);
  - the `protect` and `isLoggedIn` middleware and the `restrictTo` role gate;
  - `signup`, `login` and `logout`, with the cookie that `createSendToken` sets;
  - the reset lifecycle: `forgotPassword` (including its rollback when
    delivery fails) and `resetPassword`;
  - `updatePassword`.
- **The query builder** (`ApiFeatures`, `api_features.dfy`). It covers
  `filter`, `sort`, `limitFields` and `paginate`. `filter` deletes the
  reserved keys, then makes the JSON-text rewrite that prefixes whole-word
  `gt|gte|lt|lte` with `$`.

Supporting modules:

- `Common` holds `Option`, `Result` and the error kinds.
- `Text` models JavaScript's `split`/`join` on one character, ASCII
  lower-casing and decimal number parsing.

Conventions of the model:

- Time is an integer count of milliseconds, and each handler receives `now`.
- The store is a sequence of `User` records in natural order.
- A handler is a pure function from the request, the store and the clock to
  an `Outcome`: `next()`, `next(err)`, two `next(err)` calls, no `next` and
  no response, or a response. A handler that can write also returns the
  store after it.
- Password hashing, hash comparison, SHA-256, token signing and token
  verification are the fields of a `Crypto` value. They are arbitrary
  functions, and no property of them is assumed except where a lemma states
  one as a precondition. Signing takes the user id and the clock value, as
  `jwt.sign` embeds the issue time in the token.
- Random reset tokens, the mail delivery result and new record ids are
  parameters.

Where the code's own comments and error messages state an intent that the
code does not carry out, the model follows the code:

- The step commented "check if user changed password after token was
  issued" (controllers/authController.js:146-152) builds a 401 error with the
  message "User recently changed password! Please log in again".
  - The code returns that error object instead of passing it to `next`, so
    the request hangs (Findings, row 2).
  - The change is recorded one second early (models/userModel.js:68-74) and
    compared in whole seconds. A token issued up to about two seconds before
    the change survives it (`UserModel.SaveKeepsFreshTokens`).
  - Only tokens issued two seconds or more earlier are certainly rejected
    (`UserModel.SaveInvalidatesOlderTokens`).
- The login error "Incorrect email or password"
  (controllers/authController.js:92) is written with a 401.
  - The 401 is passed to `next`, not to the error, so the error carries no
    status (Findings, row 3).
- The email path declares the message "Please input a valid email"
  (models/userModel.js:16).
  - It is declared under the schema key `validator`, which the schema does
    not read. No format check runs, so the model has none.

A token the verifier rejects (controllers/authController.js:134-135) is
forwarded as the verifier's own error. Its status comes from an error handler
that is not part of this model, so the model records the kind
`Kind.TokenRejected` with no status.

## Model

| member | source | states |
|---|---|---|
| UserModel.ParseRole | models/userModel.js:42-46 | Accepts exactly the three role names, returning the role with that name; a string that is no role's name is rejected |
| UserModel.RoleFromInput | models/userModel.js:42-46 | A missing role defaults to employee; a given role is accepted iff it is one of the enum's names, otherwise a validation error |
| UserModel.Find | models/userModel.js:77-80 | A lookup returns the first record that matches and is not deactivated (`active` is not `false`), or nothing when every matching record is deactivated |
| UserModel.Seconds | models/userModel.js:93-96 | `parseInt(ms/1000)` truncates toward zero: the result brackets `ms` within one second from below for non-negative times and from above for negative ones |
| UserModel.ChangedPasswordAfter | models/userModel.js:91-103 | No recorded change means never changed; otherwise the token at `iat` is outdated iff `iat` is below the change time in whole seconds truncated toward zero: for change times at or after 1970, iff the change is at or after the start of the second following `iat`; for earlier change times, iff the change is strictly after the start of second `iat` |
| UserModel.CreatePasswordResetToken | models/userModel.js:106-122 | Returns the plain token, stores only its SHA-256 digest with expiry now + 10 minutes, and changes no other field |
| UserModel.ResetTokenLivesTenMinutes | models/userModel.js:119 | The issued digest is matched by the reset lookup at time `later` iff `later` is before issue time + 600000 ms |
| UserModel.Save | models/userModel.js:26-74 | A validated save of an invalid document fails with a validation error; a modified password is stored only as its hash (at least 8 characters and confirmed when validated), with the confirmation dropped, and an unmodified one keeps the stored hash; a password change on an existing record sets `passwordChangedAt` to now - 1000 ms while a new record keeps its own; hashing a missing password fails; no other field changes |
| UserModel.SaveKeepsTokenValidity | models/userModel.js:68-69 | A save that does not modify the password leaves `changedPasswordAfter` unchanged for every token |
| UserModel.SaveKeepsFreshTokens | models/userModel.js:68-74 | After a password-changing save at `now`, a token issued at or after now - 1000 ms is still not outdated |
| UserModel.SaveInvalidatesOlderTokens | models/userModel.js:68-74 | After a password-changing save at `now`, a token issued 2000 ms or more before is outdated |
| UserModel.NewDoc | models/userModel.js:6-54 | A new document carries the given id, name, department, password, confirmation and change time unchanged, the email lower-cased (`LowerEmail`), the role parsed from the input (employee by default), `active` true and no reset token; its password is marked modified iff given; it fails, with a validation error, exactly when the role is invalid |
| UserModel.Create | models/userModel.js:6-65 | Succeeds iff the role is valid, the new document validates and its lower-cased email is not taken by any record, inactive ones included; a taken email is a duplicate-key error; on success exactly one record is appended, the others kept, and it is the input with the email lower-cased, the password (at least 8 characters, confirmed) replaced by its hash, the confirmation dropped, the role defaulted and the account active; a missing department is always a validation error |
| Text.Lower | models/userModel.js:15 | The lower-cased email has the same length, no upper-case ASCII letter, upper-case letters shifted by 32 and everything else unchanged |
| Text.Split | controllers/authController.js:123 | `split` yields at least one piece and no piece contains the separator |
| Text.JoinSplitRoundTrip | utils/apiFeatures.js:27 | Splitting loses nothing: joining the pieces with the separator they were split on gives back the string, for every string and separator |
| Text.JoinSplitReplaces | utils/apiFeatures.js:27 | `split(',').join(' ')` equals replacing every comma by a space (the reference `ReplaceChar`) |
| Text.SplitHasSecondPiece | controllers/authController.js:123 | `split(' ')[1]` exists iff the header contains a space |
| Text.ParseShowInt | utils/apiFeatures.js:53-54 | Every integer written in decimal is read back as itself by `* 1`, read as an exact integer (the source's doubles are exact only up to 2^53) |
| Text.ParseInt | utils/apiFeatures.js:53-54 | `* 1` on a string reads a number iff the string is a non-empty run of decimal digits, optionally after one sign; digits alone read as their decimal value, and a negative result comes only from a leading `-`; the empty string is not a number |
| AuthController.ExtractToken | controllers/authController.js:119-129 | A header starting with `Bearer` wins: a token taken from it is non-empty and space-free and the header contains a space, and such a header without a space gives no token whatever the cookie; only without such a header is a non-empty cookie used |
| AuthController.BearerTakesPrecedence | controllers/authController.js:119-126 | `Bearer <t>` (optionally followed by space-separated text) yields exactly `t`, whatever the cookie |
| AuthController.CheckToken | controllers/authController.js:135-152 | Classifies a token as rejected by the verifier, naming no active user, outdated by a password change, or fresh; the four cases are exactly characterised, and a fresh result carries the first active record with that id |
| AuthController.Protect | controllers/authController.js:115-158 | No token is a 401 `next(err)`; a token the verifier rejects forwards the verifier's own error (no status); `protect` never responds itself; when it grants, the same user goes to `req.user` and `res.locals.user` |
| AuthController.ProtectGrantsIff | controllers/authController.js:135-157 | `protect` calls `next()` iff a token is present, verifies, and names an active user whose password is unchanged since issue; that user (without password and active flag) is attached |
| AuthController.ProtectStaleTokenHangs | controllers/authController.js:147-152 | As written, a verified token older than the user's last password change ends with neither `next` nor a response, and only such a token does |
| AuthController.ProtectMissingUserCallsNextTwice | controllers/authController.js:138-147 | As written, `next` runs twice, first with the 401 and then with the TypeError from reading `changedPasswordAfter` of `null`, exactly when a token is present and verifies but no active record has its id |
| AuthController.ProtectIntended | controllers/authController.js:115-158 | The corrected `protect` always ends in exactly one `next`; no token is the 401 not-logged-in error, a token the verifier rejects forwards the verifier's error, and every other rejection carries 401 |
| AuthController.ProtectIntendedAgrees | controllers/authController.js:140-152 | The corrected and written `protect` grant the same requests; where the written one hangs, the corrected one rejects with 401; where it calls `next` twice, the corrected one keeps only the first call |
| AuthController.IsLoggedIn | controllers/authController.js:160-189 | Reads only the cookie, always calls `next()` without an error and never sets `req.user`; sets `res.locals.user` iff the cookie's token verifies and names an active user with an unchanged password, and sets it to that user |
| AuthController.RestrictTo | controllers/authController.js:192-202 | Calls `next()` iff the attached user's role is in the allowed list, otherwise 403; without an attached user it throws |
| AuthController.GuardAdmitsIff | controllers/authController.js:192-202 | The corrected `protect` (`ProtectIntended`) followed by `restrictTo` admits a request iff its token names an active user with an unchanged password and an allowed role; an authenticated user with another role gets a 403 |
| AuthController.CookieExpiry | controllers/authController.js:17-20 | The session cookie expires exactly `JWT_COOKIE_EXPIRES_IN` days after `now` |
| AuthController.SendToken | controllers/authController.js:9-26 | Responds with the given status and a token signed for the user's id at `now`, also set as the http-only `jwt` cookie |
| AuthController.Logout | controllers/authController.js:106-113 | Responds 200 with no token and overwrites the http-only `jwt` cookie with a value that expires 10 s later |
| AuthController.LogoutCookieAuthenticatesNobody | controllers/authController.js:106-110 | Sending back the logout cookie, which the verifier rejects, gives a rejected token in `protect` and no user in `isLoggedIn` |
| AuthController.LoginWith | controllers/authController.js:80-97 | A missing email or password is a 400; a response happens iff the first active account under the lower-cased email has a password the presented one matches, and it is that account's token with 200; an unknown email or a wrong password is the wrong-credentials error; an account without a stored password makes the comparison throw an illegal-arguments error |
| AuthController.InactiveCannotLogin | controllers/authController.js:89-93 | When every account under the email is deactivated, login fails even with the right password |
| AuthController.LoginWrongCredentialsUnstatused | controllers/authController.js:91-93 | As written, an unknown email or a wrong password for the first active account under it gives an error without a status code |
| AuthController.LoginIntendedWrongCredentials401 | controllers/authController.js:91-93 | With the status passed to the error, the same requests are refused with a 401 |
| AuthController.ForgotPassword | controllers/authController.js:205-246 | An unknown or missing email is a 404 and changes nothing; otherwise the first matching account gets the token digest and a 10-minute expiry when the mail is delivered (200); when delivery fails, the reset fields are cleared again and the result is a 500; other records never change |
| AuthController.ResetPassword | controllers/authController.js:249-278 | No active record holding the token's digest with an expiry after now is a 400 and changes nothing; a matching, complete record with a valid, confirmed new password always gets a response; a response implies a valid, confirmed new password, exactly that record rewritten to `AfterReset` (its hash, the change time now - 1000 ms, the reset fields cleared) and a fresh token; when the matched record's save fails (validation, or no password), exactly that failure is forwarded; every non-response is an error and writes nothing |
| AuthController.ResetRejectedWhenExpired | controllers/authController.js:257-265 | Once every record holding the digest has expired (expiry ≤ now), the reset is a 400 and writes nothing |
| AuthController.ResetTokenSingleUse | controllers/authController.js:257-271 | After a successful reset, presenting the same token again, at any time, is a 400 |
| AuthController.ForgotThenReset | controllers/authController.js:205-278 | The token mailed by a successful forgot-password resets a complete account's password while fresh (valid password and confirmation), and a second use fails with 400 |
| AuthController.DeliveryFailureLeavesNoToken | controllers/authController.js:234-237 | After the rollback for a failed delivery, the generated token is rejected with 400 |
| AuthController.UpdatePassword | controllers/authController.js:289-304 | No attached user, or no active record with its id, throws a TypeError; a missing current password or stored hash throws the illegal-arguments error; a current password that does not match the stored hash is a 401; a failing save forwards exactly its failure; a matching current password with a valid, confirmed new password on a complete record always responds; a response implies exactly the user's record rewritten to `AfterUpdate` (the new password's hash, confirmation dropped, change time now - 1000 ms, other fields kept) and a fresh token for it; every non-response is an error and writes nothing |
| AuthController.UpdatedSessionAccepted | controllers/authController.js:299-304 | The session cookie set by a password update is the token signed at `now`; when the verifier decodes that token to the user's id and `iat` = floor(now / 1000), it passes `protect` against the updated store |
| AuthController.SignupWith | controllers/authController.js:41-67 | When the creation succeeds, signup responds 201 with a token for the new record and the store is the created one; when it fails, the creation error is forwarded unchanged and nothing is written |
| AuthController.SignupNeverCreates | controllers/authController.js:42-48 | As written, every signup fails with a validation error and writes nothing, because the required department is never passed on |
| AuthController.SignupIntendedCreates | controllers/authController.js:42-48 | With the department passed on, a complete signup with an unused email appends one employee record holding the password's hash, and responds 201 |
| ApiFeatures.DropReserved | utils/apiFeatures.js:9-11 | The copy keeps exactly the entries whose key is not page, sort, limit or fields |
| ApiFeatures.DropReservedKeepsDistinct | utils/apiFeatures.js:9-11 | Deleting the reserved keys keeps the remaining keys distinct |
| ApiFeatures.RewriteString | utils/apiFeatures.js:15-16 | The rewrite of one JSON string leaves no bare operator (every whole-word `gt`, `gte`, `lt` or `lte` of the result follows a `$`), adds exactly one character per whole-word operator of the input, leaves text without one unchanged, and is undone by `Unrewrite` |
| ApiFeatures.RewriteMarksOperators | utils/apiFeatures.js:15-16 | For any text and any preceding context, every whole-word operator in the rewrite, judged by JSON's rendering of the characters, is preceded by `$` |
| ApiFeatures.OperatorWordsZero | utils/apiFeatures.js:16 | The count of whole-word operator positions is zero exactly when no position of the text starts one |
| ApiFeatures.RewriteLength | utils/apiFeatures.js:16 | In any context, the rewrite is longer than its input by exactly the number of whole-word operators in it: one `$` each, nothing else |
| ApiFeatures.RewriteWithoutOperators | utils/apiFeatures.js:16 | Text in which no whole-word operator starts is left unchanged |
| ApiFeatures.Unrewrite | utils/apiFeatures.js:15-16 | The inverse of the rewrite, used as its partner: its result is never longer than its input |
| ApiFeatures.UnrewriteDeletesOnlyDollars | utils/apiFeatures.js:15-16 | The inverse only deletes, and only `$`: every other character occurs in its result exactly as often as in its input |
| ApiFeatures.RewriteRoundTrip | utils/apiFeatures.js:15-16 | Removing the `$` before every whole-word operator undoes the rewrite, so it loses no information |
| ApiFeatures.RewriteInjective | utils/apiFeatures.js:15-16 | Distinct strings stay distinct under the rewrite |
| ApiFeatures.RewriteOperatorExample | utils/apiFeatures.js:16 | `gte` becomes `$gte` |
| ApiFeatures.RewriteListExample | utils/apiFeatures.js:16 | `lt,lte` becomes `$lt,$lte` |
| ApiFeatures.RewriteLongerWordExample | utils/apiFeatures.js:16 | `gtx` is left alone: the operator is not a whole word |
| ApiFeatures.RewriteWordEndExample | utils/apiFeatures.js:16 | `agt` holds no whole-word operator and is left alone |
| ApiFeatures.RewriteAfterEscapeExample | utils/apiFeatures.js:15-16 | A newline followed by `gt` is left alone: JSON writes it as `\n`, whose `n` is a word character, so no word boundary precedes `gt` |
| ApiFeatures.RewriteValueExample | utils/apiFeatures.js:15-19 | String values are rewritten as well as keys: `{price: "lt"}` becomes `{price: "$lt"}` |
| ApiFeatures.JsonRoundTrip | utils/apiFeatures.js:15-19 | The rewrite of a whole query value, keys and strings at every depth, is undone by its inverse |
| ApiFeatures.FilterConditions | utils/apiFeatures.js:7-19 | The conditions have one entry per non-reserved query-string entry, in order: its key rewritten (`RewriteString`) and its value rewritten at every depth (`RewriteJson`); every whole-word operator in a condition key follows a `$`, and undoing the rewrite gives the original, non-reserved key |
| ApiFeatures.FilterKeepsNonReservedKeys | utils/apiFeatures.js:9-19 | A rewritten key appears in the conditions iff the key is in the query string and not reserved; undoing the rewrite gives back the query string without its reserved keys |
| ApiFeatures.FilterKeepsDistinctKeys | utils/apiFeatures.js:15-19 | Distinct query-string keys give distinct condition keys, so parsing the rewritten JSON loses no entry |
| ApiFeatures.Filter | utils/apiFeatures.js:7-22 | `filter()` sets only the conditions, to exactly the rewritten non-reserved entries (`FilterConditions`), whose inverse rewrite is the query string without reserved keys; the query string itself is not modified |
| ApiFeatures.CommaList | utils/apiFeatures.js:26-33 | An absent or empty value gives the default; a non-empty string gives the value with commas replaced by spaces; an array or object has no `split`, so it is a TypeError |
| ApiFeatures.Sort | utils/apiFeatures.js:24-36 | `sort()` sets only the sort, to the comma list or `-createdAt`, and fails exactly when the value cannot be split |
| ApiFeatures.LimitFields | utils/apiFeatures.js:38-49 | `limitFields()` sets only the projection, to the comma list or `-__v`, and fails exactly when the value cannot be split |
| ApiFeatures.OrDefault | utils/apiFeatures.js:53-54 | A non-zero number is kept; zero or not a number falls back to the default, as JavaScript's `or` does |
| ApiFeatures.Paginate | utils/apiFeatures.js:51-60 | `paginate()` sets only skip and limit: limit is the given limit (default 100), skip is (page - 1) × limit (page default 1); the query string is kept |
| ApiFeatures.PaginateDefaults | utils/apiFeatures.js:53-55 | Without page and limit, skip is 0 and limit is 100 |
| ApiFeatures.PaginateUsesGivenNumbers | utils/apiFeatures.js:53-55 | Any non-zero decimal page and limit are used as given, including negative ones and limits of any size |
| ApiFeatures.PaginateZeroOrJunkIsDefault | utils/apiFeatures.js:53-55 | A page that is absent, zero, an array or object, or a string that is not an optionally signed run of digits gives page 1 and skip 0; the same values for limit give 100; any other page or limit is the number its digits spell |
| ApiFeatures.ZeroOrJunkExamples | utils/apiFeatures.js:53-54 | `0`, `-0`, `abc`, the empty string, an empty array and an absent value all fall back to the default; `2` does not |
| ApiFeatures.Build | utils/apiFeatures.js:7-60 | The four stages in order succeed iff sort and fields are absent or strings; each part of the result comes from the original query string, although `filter` deleted keys from its copy |
| ApiFeatures.BuildExample | utils/apiFeatures.js:7-60 | `price[gte]=100&sort=-price,name&fields=name,price&page=2&limit=5` gives conditions `{price: {$gte: "100"}}`, sort `-price name`, projection `name price`, skip 5, limit 5 |

## Left out

- Cryptography: bcrypt, SHA-256, random bytes and JWT signing/verification are the `Crypto` oracle functions and parameters. Token expiry (`JWT_EXPIRES_IN`) is therefore part of the verifier oracle.
- Express and Mongoose plumbing:
  - `catchAsync`, promises and `await` ordering;
  - response JSON bodies (including the password being blanked in `createSendToken`);
  - the `secure` cookie flag;
  - the `photo` path and its default.
- Welcome and reset emails: sending is a parameter (`delivered`) of `forgotPassword`. The `NODE_ENV`-dependent welcome mail in `signup` is left out, both as written (it only runs after the creation, which always fails) and in the corrected signup (`AuthController.SignupIntendedCreates`), where its delivery and any failure of it are not modelled.
- Logging: `createPasswordResetToken` writes the plain reset token and its digest to the console (models/userModel.js:116). Console output is not modelled, so the model does not show that the secret token leaks to the log.
- Non-string request-body values: every body field is an optional string. A JSON body can instead carry an object such as `{"$gt": ""}` for `email`, which Mongoose reads as a query operator in the `login` and `forgotPassword` lookups (controllers/authController.js:89, 207). That behaviour is not modelled.
- `AppError`, the global error handler and the mapping from error to HTTP response are not part of this model. An error is its kind plus the status it was built with, if any.
- Routes, `app.js`, `server.js` and `controllers/taskController.js` are outside the modelled core (wiring, bootstrapping and a schema without behaviour).
- `Query.find` merging with conditions already on the query. Each stage records its part on an empty query.
- Text handling:
  - Lower-casing covers ASCII letters only.
  - `minlength` counts characters of Dafny's `string`, not UTF-16 code units.
  - Lone surrogates, which `JSON.stringify` escapes, are not modelled in the rewrite's word boundaries.
- JavaScript's numeric coercion: `* 1` is modelled for optionally signed decimal digit strings only. Whitespace, hexadecimal, exponent and fractional forms become "not a number", and so does a one-element array, which JavaScript coerces to its element.
- Floating point: JavaScript numbers are doubles, while page, limit and skip are unbounded integers here. Above 2^53 the source rounds, and `(page - 1) * limit` can round or overflow to `Infinity`; the model computes the exact product.
- Each request sees a single clock value `now` for all its steps.
- Concurrency: each handler is one atomic step from store to store. In the source, `resetPassword` finds the record and saves it later (controllers/authController.js:257-272), so two concurrent requests with the same token could both pass the lookup. `AuthController.ResetTokenSingleUse` holds for requests handled one after the other.
- Text.Split: states that the pieces are separator-free, not which pieces. Its use in `ExtractToken` and the comma lists is pinned down by `Text.SplitAtFirst`, `Text.SplitHasSecondPiece` and `Text.JoinSplitReplaces`.
- UserModel.Save: validation of email format is absent, matching the code (see above).
- UserModel.SaveKeepsFreshTokens: requires `now` of at least 1000 ms after the epoch. Before that, truncation toward zero and the token's floor division disagree.
- UserModel.CreatePasswordResetToken: states that the digest is stored, not that the digest differs from the plain token. That would be a property of SHA-256, which is an oracle here.
- AuthController.ExtractToken: its contract says a header token is non-empty and space-free. Which piece it is comes from `AuthController.BearerTakesPrecedence`.

## Findings

| source | as written | input that shows it | evidently intended | confidence | as-written member | corrected member |
|---|---|---|---|---|---|---|
| controllers/authController.js:140-144 | `next(err)` is called without `return`, so the handler goes on to call `currentUser.changedPasswordAfter` on `null`, and the resulting TypeError reaches `next` a second time | a verified token whose id names no record (empty store, token decoding to id `gone`) | one `next(err)` with the 401 | high, not executed | AuthController.ProtectMissingUserCallsNextTwice | AuthController.ProtectIntendedAgrees |
| controllers/authController.js:147-152 | the password-changed error is `return`ed instead of passed to `next`, so the request gets no response | a verified token whose `iat` is before the user's recorded password change | `next` with a 401 | high, not executed | AuthController.ProtectStaleTokenHangs | AuthController.ProtectIntendedAgrees |
| controllers/authController.js:91-93 | the 401 is passed as a second argument to `next` instead of to `AppError`, so the error has no status code | an existing email with a wrong password | wrong credentials are a 401 | high, not executed | AuthController.LoginWrongCredentialsUnstatused | AuthController.LoginIntendedWrongCredentials401 |
| controllers/authController.js:42-48 | `signup` does not pass `department` to `User.create`, but the schema requires it (models/userModel.js:18-21), so every signup fails validation | any request, e.g. a complete body with name, email, department and a valid confirmed password | the department is passed on and a complete signup creates the account | high, not executed | AuthController.SignupNeverCreates | AuthController.SignupIntendedCreates |

=== FILE: api_features.dfy ===
/** The query builder: a parsed query string becomes a recorded query —
    filter conditions, sort, projection, skip and limit. Each stage returns
    the builder with only its own part of the query changed. */
module ApiFeatures {
  import opened Common
  import opened Text

  /** A value of the parsed query string: a string, an array (`a=1&a=2`) or
      an object (bracket notation, `price[gte]=5`). */
  datatype Json = Str(s: string) | Arr(items: seq<Json>) | Obj(fields: seq<Field>)
  datatype Field = Field(key: string, value: Json)

  predicate DistinctKeys(fs: seq<Field>)
  {
    forall i, j :: 0 <= i < j < |fs| ==> fs[i].key != fs[j].key
  }

  predicate HasKey(fs: seq<Field>, key: string)
  {
    exists i :: 0 <= i < |fs| && fs[i].key == key
  }

  /** The value under `key`, if any (the first, when keys repeat). */
  function Lookup(fs: seq<Field>, key: string): (r: Option<Json>)
    ensures r.Some? <==> HasKey(fs, key)
    ensures r.Some? ==> exists i :: 0 <= i < |fs| && fs[i] == Field(key, r.value)
    decreases |fs|
  {
    if fs == [] then None
    else if fs[0].key == key then Some(fs[0].value)
    else
      var r := Lookup(fs[1..], key);
      assert forall i :: 0 <= i < |fs| - 1 ==> fs[1..][i] == fs[i + 1];
      r
  }

  /** The keys the filter stage leaves to the other stages. */
  predicate Reserved(key: string)
  {
    key == "page" || key == "sort" || key == "limit" || key == "fields"
  }

  /** The copy of the query string with the reserved keys deleted; every
      other entry is kept, in order. */
  function DropReserved(fs: seq<Field>): (r: seq<Field>)
    ensures forall f :: f in r <==> f in fs && !Reserved(f.key)
    ensures |r| <= |fs|
    decreases |fs|
  {
    if fs == [] then []
    else if Reserved(fs[0].key) then DropReserved(fs[1..])
    else [fs[0]] + DropReserved(fs[1..])
  }

  /** Deleting keys keeps them distinct. */
  lemma {:induction false} DropReservedKeepsDistinct(fs: seq<Field>)
    requires DistinctKeys(fs)
    ensures DistinctKeys(DropReserved(fs))
    decreases |fs|
  {
    if fs != [] {
      DropReservedKeepsDistinct(fs[1..]);
      var rest := DropReserved(fs[1..]);
      forall g | g in rest ensures g.key != fs[0].key {
        var j :| 0 <= j < |fs[1..]| && fs[1..][j] == g;
        assert fs[j + 1] == g;
      }
    }
  }

  // The operator rewrite. The filter stage serialises the object to JSON,
  // replaces every whole word gt, gte, lt or lte by the same word prefixed
  // with `$`, and parses the text back. Every key and string value is a
  // separate JSON string between quotes, so the rewrite acts on each of them
  // alone; within one, a raw character decides the word boundaries of the
  // JSON text through its rendering: JSON escapes a control character as
  // `\n`, `\t`, ... or `\u00XX`, which starts with a non-word character and
  // ends with a word character.

  /** A word character of a JavaScript regular expression without the `u` flag. */
  predicate IsWordChar(c: char)
  {
    'a' <= c <= 'z' || 'A' <= c <= 'Z' || '0' <= c <= '9' || c == '_'
  }

  /** Whether the JSON rendering of `c` ends with a word character. */
  predicate TrailsWord(c: char)
  {
    IsWordChar(c) || c < ' '
  }

  /** The length of the run of word characters that starts `s`. */
  function WordRun(s: string): (n: nat)
    ensures n <= |s|
    ensures forall i :: 0 <= i < n ==> IsWordChar(s[i])
    ensures n < |s| ==> !IsWordChar(s[n])
    decreases |s|
  {
    if s == [] || !IsWordChar(s[0]) then 0 else 1 + WordRun(s[1..])
  }

  /** `gt`, `gte`, `lt` or `lte`. */
  predicate IsOperator(w: string)
  {
    && (|w| == 2 || (|w| == 3 && w[2] == 'e'))
    && (w[0] == 'g' || w[0] == 'l')
    && w[1] == 't'
  }

  /** The rewrite of one JSON string. `afterWord` says whether the rendered
      text before `s` ends in a word character (no word starts here then). */
  function Rewrite(s: string, afterWord: bool): string
    decreases |s|
  {
    if s == [] then []
    else if !afterWord && IsOperator(s[..WordRun(s)]) then
      var n := WordRun(s);
      "$" + s[..n] + Rewrite(s[n..], true)
    else [s[0]] + Rewrite(s[1..], TrailsWord(s[0]))
  }

  /** A whole JSON string: the opening quote is not a word character. Every
      whole-word operator of the result follows a `$`, dropping those `$`
      gives back `s`, exactly one `$` is added per whole-word operator of
      `s`, and text without one is left as it is. */
  function RewriteString(s: string): (r: string)
    ensures Marked(r, false)
    ensures Unrewrite(r) == s
    ensures |r| == |s| + OperatorWords(s, false)
    ensures (forall i :: 0 <= i < |s| ==> !OperatorWordAt(s, false, i)) ==> r == s
  {
    RewriteMarksOperators(s, false);
    RewriteRoundTrip(s, false);
    RewriteLength(s, false);
    OperatorWordsZero(s, false);
    if OperatorWords(s, false) == 0 then
      RewriteWithoutOperators(s, false);
      Rewrite(s, false)
    else Rewrite(s, false)
  }

  /** The inverse: drop the `$` in front of every whole-word operator. */
  function Unrewrite(t: string): (r: string)
    ensures |r| <= |t|
    decreases |t|
  {
    if t == [] then []
    else if t[0] == '$' && IsOperator(t[1..][..WordRun(t[1..])]) then Unrewrite(t[1..])
    else [t[0]] + Unrewrite(t[1..])
  }

  lemma {:induction false} RunOfWord(w: string, x: string)
    requires forall i :: 0 <= i < |w| ==> IsWordChar(w[i])
    requires x == [] || !IsWordChar(x[0])
    ensures WordRun(w + x) == |w|
    decreases |w|
  {
    if w != [] {
      assert (w + x)[1..] == w[1..] + x;
      RunOfWord(w[1..], x);
    }
  }

  /** Where no operator starts, the first character is copied. */
  lemma RewriteCopiesHead(u: string, b: bool)
    requires u != []
    requires b || !IsOperator(u[..WordRun(u)])
    ensures Rewrite(u, b) == [u[0]] + Rewrite(u[1..], TrailsWord(u[0]))
  {
  }

  /** Prefixing the same word character to two strings that start with
      the same word keeps them starting with the same word. */
  lemma SameLeadingWordCons(c: char, t: string, u: string)
    requires IsWordChar(c)
    requires WordRun(t) == WordRun(u) && t[..WordRun(u)] == u[..WordRun(u)]
    ensures WordRun([c] + t) == WordRun([c] + u)
    ensures ([c] + t)[..WordRun([c] + u)] == ([c] + u)[..WordRun([c] + u)]
  {
    assert ([c] + t)[1..] == t && ([c] + u)[1..] == u;
    var n := WordRun([c] + u);
    assert ([c] + t)[..n] == [c] + t[..n - 1];
    assert ([c] + u)[..n] == [c] + u[..n - 1];
  }

  /** One step of `RewriteKeepsLeadingWord`: a copied word character. */
  lemma LeadingWordStep(u: string, b: bool)
    requires u != [] && IsWordChar(u[0])
    requires b || !IsOperator(u[..WordRun(u)])
    requires WordRun(Rewrite(u[1..], true)) == WordRun(u[1..])
    requires Rewrite(u[1..], true)[..WordRun(u[1..])] == u[1..][..WordRun(u[1..])]
    ensures WordRun(Rewrite(u, b)) == WordRun(u)
    ensures Rewrite(u, b)[..WordRun(u)] == u[..WordRun(u)]
  {
    RewriteCopiesHead(u, b);
    assert [u[0]] + u[1..] == u;
    SameLeadingWordCons(u[0], Rewrite(u[1..], true), u[1..]);
  }

  /** Where no operator starts, the leading word is copied unchanged. */
  lemma {:induction false} RewriteKeepsLeadingWord(u: string, b: bool)
    requires b || !IsOperator(u[..WordRun(u)])
    ensures WordRun(Rewrite(u, b)) == WordRun(u)
    ensures Rewrite(u, b)[..WordRun(u)] == u[..WordRun(u)]
    decreases |u|
  {
    if u != [] {
      if IsWordChar(u[0]) {
        RewriteKeepsLeadingWord(u[1..], true);
        LeadingWordStep(u, b);
      } else {
        RewriteCopiesHead(u, b);
        assert Rewrite(u, b)[0] == u[0];
      }
    }
  }

  /** A rewritten text never starts with a bare operator word: after a `$`
      an operator would have been prefixed. */
  lemma NoBareOperatorAtStart(u: string)
    ensures var r := Rewrite(u, false); !IsOperator(r[..WordRun(r)])
  {
    if u != [] && !IsOperator(u[..WordRun(u)]) {
      RewriteKeepsLeadingWord(u, false);
    }
  }

  /** `Unrewrite` only deletes, and only `$` characters: every other
      character occurs as often in the result as in the input. */
  lemma {:induction false} UnrewriteDeletesOnlyDollars(t: string)
    ensures multiset(Unrewrite(t)) <= multiset(t)
    ensures forall c :: c != '$' ==> multiset(Unrewrite(t))[c] == multiset(t)[c]
    decreases |t|
  {
    if t != [] {
      UnrewriteDeletesOnlyDollars(t[1..]);
      assert t == [t[0]] + t[1..];
      assert multiset(t) == multiset([t[0]]) + multiset(t[1..]);
    }
  }

  lemma {:induction false} UnrewriteSkipsPlain(p: string, x: string)
    requires forall i :: 0 <= i < |p| ==> p[i] != '$'
    ensures Unrewrite(p + x) == p + Unrewrite(x)
    decreases |p|
  {
    if p != [] {
      assert (p + x)[0] == p[0];
      assert (p + x)[1..] == p[1..] + x;
      assert Unrewrite(p + x) == [p[0]] + Unrewrite(p[1..] + x);
      UnrewriteSkipsPlain(p[1..], x);
      assert p == [p[0]] + p[1..];
    } else {
      assert p + x == x;
    }
  }

  /** Undoing a prefixed operator word `w` followed by text `x` that does
      not continue the word. */
  lemma UnrewriteOperator(w: string, x: string, rest: string)
    requires IsOperator(w)
    requires forall i :: 0 <= i < |w| ==> IsWordChar(w[i])
    requires x == [] || !IsWordChar(x[0])
    requires Unrewrite(x) == rest
    ensures Unrewrite("$" + w + x) == w + rest
  {
    RunOfWord(w, x);
    var r := "$" + w + x;
    assert r[1..] == w + x;
    assert (w + x)[..|w|] == w;
    UnrewriteSkipsPlain(w, x);
  }

  /** Undoing a copied character. A copied `$` is never followed by a bare
      operator word. */
  lemma UnrewriteCopied(c: char, y: string, rest: string)
    requires c == '$' ==> !IsOperator(y[..WordRun(y)])
    requires Unrewrite(y) == rest
    ensures Unrewrite([c] + y) == [c] + rest
  {
    assert ([c] + y)[0] == c && ([c] + y)[1..] == y;
  }

  /** Where an operator starts, it is prefixed and the rest rewritten. */
  lemma RewritePrefixesOperator(s: string, b: bool)
    requires s != [] && !b && IsOperator(s[..WordRun(s)])
    ensures Rewrite(s, b) == "$" + s[..WordRun(s)] + Rewrite(s[WordRun(s)..], true)
  {
  }

  /** After a word, the rewrite starts with the same non-word character. */
  lemma RewriteAfterWordHead(u: string)
    requires u == [] || !IsWordChar(u[0])
    ensures var x := Rewrite(u, true); x == [] || !IsWordChar(x[0])
  {
    if u != [] {
      RewriteCopiesHead(u, true);
    }
  }

  /** One step of the round trip where an operator is prefixed. */
  lemma RoundTripOperatorStep(s: string, b: bool)
    requires s != [] && !b && IsOperator(s[..WordRun(s)])
    requires Unrewrite(Rewrite(s[WordRun(s)..], true)) == s[WordRun(s)..]
    ensures Unrewrite(Rewrite(s, b)) == s
  {
    var n := WordRun(s);
    var x := Rewrite(s[n..], true);
    RewritePrefixesOperator(s, b);
    RewriteAfterWordHead(s[n..]);
    UnrewriteOperator(s[..n], x, s[n..]);
    assert s[..n] + s[n..] == s;
  }

  /** One step of the round trip where a character is copied. */
  lemma RoundTripCopyStep(s: string, b: bool)
    requires s != [] && !(!b && IsOperator(s[..WordRun(s)]))
    requires Unrewrite(Rewrite(s[1..], TrailsWord(s[0]))) == s[1..]
    ensures Unrewrite(Rewrite(s, b)) == s
  {
    RewriteCopiesHead(s, b);
    if s[0] == '$' {
      NoBareOperatorAtStart(s[1..]);
    }
    UnrewriteCopied(s[0], Rewrite(s[1..], TrailsWord(s[0])), s[1..]);
    assert [s[0]] + s[1..] == s;
  }

  /** Undoing the rewrite gives back the original string. */
  lemma {:induction false} RewriteRoundTrip(s: string, b: bool)
    ensures Unrewrite(Rewrite(s, b)) == s
    decreases |s|
  {
    if s != [] {
      if !b && IsOperator(s[..WordRun(s)]) {
        RewriteRoundTrip(s[WordRun(s)..], true);
        RoundTripOperatorStep(s, b);
      } else {
        RewriteRoundTrip(s[1..], TrailsWord(s[0]));
        RoundTripCopyStep(s, b);
      }
    }
  }

  /** Distinct strings stay distinct: renamed keys cannot collide. */
  lemma RewriteInjective(a: string, b: string)
    requires RewriteString(a) == RewriteString(b)
    ensures a == b
  {
    RewriteRoundTrip(a, false);
    RewriteRoundTrip(b, false);
  }

  /** An operator word starts at `i` of the rendered text `t` as a whole
      word: the text before it ends in a non-word character (at the very
      start, when `afterWord` is false). */
  predicate OperatorWordAt(t: string, afterWord: bool, i: int)
  {
    && 0 <= i < |t|
    && (if i == 0 then !afterWord else !TrailsWord(t[i - 1]))
    && IsOperator(t[i..][..WordRun(t[i..])])
  }

  /** Every whole-word operator in `t` is preceded by a `$`. */
  predicate Marked(t: string, afterWord: bool)
  {
    forall i :: 0 <= i < |t| && OperatorWordAt(t, afterWord, i) ==> i > 0 && t[i - 1] == '$'
  }

  /** `$`, an operator, then marked text is marked. */
  lemma MarkedOperatorPrefix(w: string, x: string)
    requires IsOperator(w) && forall k :: 0 <= k < |w| ==> IsWordChar(w[k])
    requires Marked(x, true)
    ensures Marked("$" + w + x, false)
  {
    var t := "$" + w + x;
    forall i | OperatorWordAt(t, false, i) ensures i > 0 && t[i - 1] == '$' {
      if i > |w| + 1 {
        var j := i - |w| - 1;
        assert t[i - 1] == x[j - 1];
        assert t[i..] == x[j..];
        assert OperatorWordAt(x, true, j);
      }
    }
  }

  /** A copied character in front of marked text keeps it marked, unless a
      bare operator would start at the front. */
  lemma MarkedCopy(c: char, y: string, b: bool)
    requires Marked(y, TrailsWord(c))
    requires !b ==> !IsOperator(([c] + y)[..WordRun([c] + y)])
    ensures Marked([c] + y, b)
  {
    var t := [c] + y;
    forall i | OperatorWordAt(t, b, i) ensures i > 0 && t[i - 1] == '$' {
      if i > 0 {
        var j := i - 1;
        assert t[i..] == y[j..];
        if j > 0 {
          assert t[i - 1] == y[j - 1];
        }
        assert OperatorWordAt(y, TrailsWord(c), j);
      }
    }
  }

  /** One step of `RewriteMarksOperators`: an operator word is prefixed. */
  lemma MarkedOperatorStep(s: string, b: bool)
    requires s != [] && !b && IsOperator(s[..WordRun(s)])
    requires Marked(Rewrite(s[WordRun(s)..], true), true)
    ensures Marked(Rewrite(s, b), b)
  {
    var n := WordRun(s);
    assert Rewrite(s, b) == "$" + s[..n] + Rewrite(s[n..], true);
    MarkedOperatorPrefix(s[..n], Rewrite(s[n..], true));
  }

  /** One step of `RewriteMarksOperators`: a character is copied. */
  lemma MarkedCopyStep(s: string, b: bool)
    requires s != [] && (b || !IsOperator(s[..WordRun(s)]))
    requires Marked(Rewrite(s[1..], TrailsWord(s[0])), TrailsWord(s[0]))
    ensures Marked(Rewrite(s, b), b)
  {
    RewriteCopiesHead(s, b);
    if !b {
      RewriteKeepsLeadingWord(s, b);
    }
    MarkedCopy(s[0], Rewrite(s[1..], TrailsWord(s[0])), b);
  }

  /** The number of positions of `s` at which a whole-word operator starts. */
  function OperatorWords(s: string, afterWord: bool): nat
    decreases |s|
  {
    if s == [] then 0
    else (if OperatorWordAt(s, afterWord, 0) then 1 else 0) + OperatorWords(s[1..], TrailsWord(s[0]))
  }

  /** Position `i + 1` of `s` is position `i` of its tail, whose context is
      the rendering of `s[0]`. */
  lemma OperatorWordShift(s: string, b: bool, i: int)
    requires 0 <= i < |s| - 1
    ensures OperatorWordAt(s, b, i + 1) <==> OperatorWordAt(s[1..], TrailsWord(s[0]), i)
  {
    assert s[i + 1..] == s[1..][i..];
    if i > 0 {
      assert s[i] == s[1..][i - 1];
    }
  }

  /** No operator is counted exactly when none starts anywhere. */
  lemma {:induction false} OperatorWordsZero(s: string, b: bool)
    ensures OperatorWords(s, b) == 0 <==> forall i :: 0 <= i < |s| ==> !OperatorWordAt(s, b, i)
    decreases |s|
  {
    if s != [] {
      OperatorWordsZero(s[1..], TrailsWord(s[0]));
      forall i | 0 <= i < |s| - 1
        ensures OperatorWordAt(s, b, i + 1) <==> OperatorWordAt(s[1..], TrailsWord(s[0]), i)
      {
        OperatorWordShift(s, b, i);
      }
      if OperatorWords(s, b) == 0 {
        forall i | 0 <= i < |s| ensures !OperatorWordAt(s, b, i) {
          if i > 0 {
            assert !OperatorWordAt(s[1..], TrailsWord(s[0]), i - 1);
          }
        }
      } else if OperatorWords(s[1..], TrailsWord(s[0])) != 0 {
        var j :| 0 <= j < |s[1..]| && OperatorWordAt(s[1..], TrailsWord(s[0]), j);
        assert OperatorWordAt(s, b, j + 1);
      }
    }
  }

  /** Inside a word no operator starts as a whole word. */
  lemma {:induction false} OperatorWordsSkipWord(u: string, m: nat)
    requires m <= |u| && forall k :: 0 <= k < m ==> IsWordChar(u[k])
    ensures OperatorWords(u, true) == OperatorWords(u[m..], true)
    decreases m
  {
    if m > 0 {
      OperatorWordsSkipWord(u[1..], m - 1);
      assert u[1..][m - 1..] == u[m..];
    }
  }

  /** The rewrite lengthens its input by one `$` per whole-word operator. */
  lemma {:induction false} RewriteLength(s: string, b: bool)
    ensures |Rewrite(s, b)| == |s| + OperatorWords(s, b)
    decreases |s|
  {
    if s != [] {
      var n := WordRun(s);
      assert s[0..] == s;
      if !b && IsOperator(s[..n]) {
        RewriteLength(s[n..], true);
        assert Rewrite(s, b) == "$" + s[..n] + Rewrite(s[n..], true);
        OperatorWordsSkipWord(s[1..], n - 1);
        assert s[1..][n - 1..] == s[n..];
      } else {
        RewriteLength(s[1..], TrailsWord(s[0]));
      }
    }
  }

  /** Text in which no whole-word operator starts is left as it is. */
  lemma {:induction false} RewriteWithoutOperators(s: string, b: bool)
    requires OperatorWords(s, b) == 0
    ensures Rewrite(s, b) == s
    decreases |s|
  {
    if s != [] {
      assert s[0..] == s;
      RewriteWithoutOperators(s[1..], TrailsWord(s[0]));
      assert [s[0]] + s[1..] == s;
    }
  }

  /** After the rewrite no operator stands as a bare word: every whole-word
      `gt`, `gte`, `lt` or `lte` in the result follows a `$`. */
  lemma {:induction false} RewriteMarksOperators(s: string, b: bool)
    ensures Marked(Rewrite(s, b), b)
    decreases |s|
  {
    if s != [] {
      if !b && IsOperator(s[..WordRun(s)]) {
        RewriteMarksOperators(s[WordRun(s)..], true);
        MarkedOperatorStep(s, b);
      } else {
        RewriteMarksOperators(s[1..], TrailsWord(s[0]));
        MarkedCopyStep(s, b);
      }
    }
  }

  /** A whole-word operator gains a `$`. */
  lemma RewriteOperatorExample()
    ensures RewriteString("gte") == "$gte"
  {
    RunOfWord("gte", "");
    assert "gte" + "" == "gte" && "gte"[..3] == "gte" && "gte"[3..] == [];
  }

  /** Operators separated by punctuation each gain a `$`. */
  lemma RewriteListExample()
    ensures RewriteString("lt,lte") == "$lt,$lte"
  {
    RewriteListSteps();
  }

  lemma RewriteListSteps()
    ensures Rewrite("lt,lte", false) == "$lt,$lte"
  {
    var s := "lt,lte";
    RunOfWord("lt", ",lte");
    assert "lt" + ",lte" == s && s[..2] == "lt" && s[2..] == ",lte";
    assert Rewrite(s, false) == "$" + "lt" + Rewrite(",lte", true);
    RewriteListTail();
  }

  lemma RewriteListTail()
    ensures Rewrite(",lte", true) == ",$lte"
  {
    var t := ",lte";
    assert WordRun(t) == 0 && t[..0] == [];
    assert Rewrite(t, true) == [','] + Rewrite("lte", false) by {
      assert t[1..] == "lte";
    }
    RunOfWord("lte", "");
    assert "lte" + "" == "lte" && "lte"[..3] == "lte" && "lte"[3..] == [];
  }

  /** An operator inside a longer word is left alone. */
  lemma RewriteLongerWordExample()
    ensures RewriteString("gtx") == "gtx"
  {
    RunOfWord("gtx", "");
    assert "gtx" + "" == "gtx" && "gtx"[..3] == "gtx";
    assert "gtx"[1..] == "tx" && "tx"[1..] == "x" && "x"[1..] == [];
  }

  /** An operator at the end of a longer word is left alone, and the text
      holds no whole-word operator to count. */
  lemma RewriteWordEndExample()
    ensures OperatorWords("agt", false) == 0
    ensures RewriteString("agt") == "agt"
  {
    var s := "agt";
    RunOfWord(s, "");
    assert s + "" == s && s[0..] == s && s[..3] == s;
    assert s[1..] == "gt" && "gt"[1..] == "t" && "t"[1..] == [];
  }

  /** After a control character, which JSON renders as an escape ending in
      a letter, there is no word boundary. */
  lemma RewriteAfterEscapeExample()
    ensures RewriteString("\ngt") == "\ngt"
  {
    var s := "\ngt";
    assert WordRun(s) == 0 && s[..0] == [];
    assert s[1..] == "gt" && "gt"[1..] == "t" && "t"[1..] == [];
  }

  /** The rewrite of a whole query value: keys and strings at every depth. */
  function RewriteJson(j: Json): Json
    decreases j
  {
    match j
    case Str(s) => Str(RewriteString(s))
    case Arr(items) => Arr(seq(|items|, i requires 0 <= i < |items| => RewriteJson(items[i])))
    case Obj(fields) =>
      Obj(seq(|fields|, i requires 0 <= i < |fields| =>
        Field(RewriteString(fields[i].key), RewriteJson(fields[i].value))))
  }

  function UnrewriteJson(j: Json): Json
    decreases j
  {
    match j
    case Str(s) => Str(Unrewrite(s))
    case Arr(items) => Arr(seq(|items|, i requires 0 <= i < |items| => UnrewriteJson(items[i])))
    case Obj(fields) =>
      Obj(seq(|fields|, i requires 0 <= i < |fields| =>
        Field(Unrewrite(fields[i].key), UnrewriteJson(fields[i].value))))
  }

  /** The rewrite of a query value loses nothing. */
  lemma {:induction false} JsonRoundTrip(j: Json)
    ensures UnrewriteJson(RewriteJson(j)) == j
    decreases j
  {
    match j
    case Str(s) => RewriteRoundTrip(s, false);
    case Arr(items) =>
      forall i | 0 <= i < |items| ensures UnrewriteJson(RewriteJson(items[i])) == items[i] {
        JsonRoundTrip(items[i]);
      }
    case Obj(fields) =>
      forall i | 0 <= i < |fields|
        ensures Unrewrite(RewriteString(fields[i].key)) == fields[i].key
        ensures UnrewriteJson(RewriteJson(fields[i].value)) == fields[i].value
      {
        RewriteRoundTrip(fields[i].key, false);
        JsonRoundTrip(fields[i].value);
      }
  }

  /** The conditions the filter stage records: the query string without its
      reserved keys, with the operator rewrite applied to keys and values. */
  function FilterConditions(qs: seq<Field>): (r: seq<Field>)
    ensures |r| == |DropReserved(qs)|
    ensures forall i :: 0 <= i < |r| ==>
      Unrewrite(r[i].key) == DropReserved(qs)[i].key && !Reserved(Unrewrite(r[i].key))
    ensures forall i :: 0 <= i < |r| ==>
      r[i] == Field(RewriteString(DropReserved(qs)[i].key), RewriteJson(DropReserved(qs)[i].value))
    ensures forall i :: 0 <= i < |r| ==> Marked(r[i].key, false)
  {
    var kept := DropReserved(qs);
    var r := RewriteJson(Obj(kept)).fields;
    forall i | 0 <= i < |r| ensures Unrewrite(r[i].key) == kept[i].key && !Reserved(kept[i].key) {
      RewriteRoundTrip(kept[i].key, false);
      assert kept[i] in kept;
    }
    r
  }

  /** The filter keeps exactly the non-reserved keys (renamed by the
      rewrite) and loses no information about their values. */
  lemma FilterKeepsNonReservedKeys(qs: seq<Field>, key: string)
    ensures (exists i :: 0 <= i < |qs| && qs[i].key == key && !Reserved(key)) <==>
      HasKey(FilterConditions(qs), RewriteString(key))
    ensures UnrewriteJson(Obj(FilterConditions(qs))) == Obj(DropReserved(qs))
  {
    var kept := DropReserved(qs);
    var r := FilterConditions(qs);
    JsonRoundTrip(Obj(kept));
    if exists i :: 0 <= i < |qs| && qs[i].key == key && !Reserved(key) {
      var i :| 0 <= i < |qs| && qs[i].key == key && !Reserved(key);
      assert qs[i] in kept;
      var k :| 0 <= k < |kept| && kept[k] == qs[i];
      assert r[k].key == RewriteString(key);
    }
    if HasKey(r, RewriteString(key)) {
      var k :| 0 <= k < |r| && r[k].key == RewriteString(key);
      RewriteRoundTrip(key, false);
      assert kept[k] in kept;
      assert kept[k] in qs;
      var i :| 0 <= i < |qs| && qs[i] == kept[k];
    }
  }

  /** Distinct keys stay distinct after the rewrite, so parsing the JSON text
      back loses no entry. */
  lemma FilterKeepsDistinctKeys(qs: seq<Field>)
    requires DistinctKeys(qs)
    ensures DistinctKeys(FilterConditions(qs))
  {
    DropReservedKeepsDistinct(qs);
    var r := FilterConditions(qs);
    forall i, j | 0 <= i < j < |r| ensures r[i].key != r[j].key {
      assert Unrewrite(r[i].key) != Unrewrite(r[j].key);
    }
  }

  /** The recorded query. `None` is a part no stage has set. */
  datatype Query = Query(conditions: Option<seq<Field>>, sort: Option<string>, projection: Option<string>,
                         skip: Option<int>, limit: Option<int>)

  const EmptyQuery := Query(None, None, None, None, None)

  /** The builder: the query so far and the query string it was given. */
  datatype Features = Features(query: Query, queryString: seq<Field>)

  /** `filter()`: records the conditions; the query string itself is not
      touched (the reserved keys are deleted from a copy). */
  function Filter(f: Features): (r: Features)
    ensures r.queryString == f.queryString
    ensures r.query == f.query.(conditions := r.query.conditions)
    ensures r.query.conditions == Some(FilterConditions(f.queryString))
    ensures UnrewriteJson(Obj(r.query.conditions.value)) == Obj(DropReserved(f.queryString))
  {
    FilterKeepsNonReservedKeys(f.queryString, "");
    f.(query := f.query.(conditions := Some(FilterConditions(f.queryString))))
  }

  /** `value.split(',').join(' ')` when the value is truthy, the default when
      it is absent or empty; a truthy non-string has no `split` and throws. */
  function CommaList(v: Option<Json>, default: string): (r: Result<string>)
    ensures v.None? || v == Some(Str("")) ==> r == Ok(default)
    ensures v.Some? && v.value.Str? && v.value.s != "" ==> r == Ok(ReplaceChar(v.value.s, ',', ' '))
    ensures v.Some? && !v.value.Str? ==> r == Err(Failure(TypeError, None))
  {
    match v
    case None => Ok(default)
    case Some(Str(s)) =>
      if s == "" then Ok(default)
      else
        JoinSplitReplaces(s, ',', ' ');
        Ok(Join(Split(s, ','), ' '))
    case Some(_) => Err(Failure(TypeError, None))
  }

  const DefaultSort := "-createdAt"
  const DefaultProjection := "-__v"

  /** `sort()`: the comma list with spaces, newest first by default. */
  function Sort(f: Features): (r: Result<Features>)
    ensures r.Ok? <==> CommaList(Lookup(f.queryString, "sort"), DefaultSort).Ok?
    ensures r.Ok? ==> r.value.queryString == f.queryString
    ensures r.Ok? ==> r.value.query == f.query.(sort := Some(CommaList(Lookup(f.queryString, "sort"), DefaultSort).value))
  {
    match CommaList(Lookup(f.queryString, "sort"), DefaultSort)
    case Err(e) => Err(e)
    case Ok(s) => Ok(f.(query := f.query.(sort := Some(s))))
  }

  /** `limitFields()`: the comma list with spaces, everything but the
      version key by default. */
  function LimitFields(f: Features): (r: Result<Features>)
    ensures r.Ok? <==> CommaList(Lookup(f.queryString, "fields"), DefaultProjection).Ok?
    ensures r.Ok? ==> r.value.queryString == f.queryString
    ensures r.Ok? ==>
      r.value.query == f.query.(projection := Some(CommaList(Lookup(f.queryString, "fields"), DefaultProjection).value))
  {
    match CommaList(Lookup(f.queryString, "fields"), DefaultProjection)
    case Err(e) => Err(e)
    case Ok(s) => Ok(f.(query := f.query.(projection := Some(s))))
  }

  /** `value * 1` for the values the model keeps: a decimal string is its
      number, anything else is not a number. */
  function NumberOf(v: Option<Json>): Option<int>
  {
    match v
    case Some(Str(s)) => ParseInt(s)
    case _ => None
  }

  /** `n || fallback`: not a number and zero both give the fallback. */
  function OrDefault(n: Option<int>, fallback: int): (r: int)
    ensures n.Some? && n.value != 0 ==> r == n.value
    ensures n.None? || n.value == 0 ==> r == fallback
  {
    if n.Some? && n.value != 0 then n.value else fallback
  }

  const DefaultPage := 1
  const DefaultLimit := 100

  function PageOf(qs: seq<Field>): int { OrDefault(NumberOf(Lookup(qs, "page")), DefaultPage) }
  function LimitOf(qs: seq<Field>): int { OrDefault(NumberOf(Lookup(qs, "limit")), DefaultLimit) }

  /** `paginate()`: skip the pages before `page`, each `limit` long. */
  function Paginate(f: Features): (r: Features)
    ensures r.queryString == f.queryString
    ensures r.query == f.query.(skip := r.query.skip, limit := r.query.limit)
    ensures r.query.limit == Some(LimitOf(f.queryString))
    ensures r.query.skip.Some? && r.query.skip.value == (PageOf(f.queryString) - 1) * r.query.limit.value
  {
    var page := PageOf(f.queryString);
    var limit := LimitOf(f.queryString);
    f.(query := f.query.(skip := Some((page - 1) * limit), limit := Some(limit)))
  }

  /** Absent page and limit give the first page of a hundred. */
  lemma PaginateDefaults(f: Features)
    requires !HasKey(f.queryString, "page") && !HasKey(f.queryString, "limit")
    ensures Paginate(f).query.skip == Some(0) && Paginate(f).query.limit == Some(100)
  {
  }

  /** Any non-zero page and limit are used as given, negative ones and
      limits of any size included (exact integers here, not doubles). */
  lemma PaginateUsesGivenNumbers(f: Features, page: int, limit: int)
    requires page != 0 && limit != 0
    requires Lookup(f.queryString, "page") == Some(Str(ShowInt(page)))
    requires Lookup(f.queryString, "limit") == Some(Str(ShowInt(limit)))
    ensures Paginate(f).query.skip == Some((page - 1) * limit)
    ensures Paginate(f).query.limit == Some(limit)
  {
    ParseShowInt(page);
    ParseShowInt(limit);
  }

  /** Whether `value * 1 || fallback` takes the fallback: the value is
      absent, not a string of digits, or zero. */
  predicate ZeroOrNotANumber(v: Option<Json>)
  {
    match v
    case Some(Str(s)) => ParseInt(s).None? || ParseInt(s) == Some(0)
    case _ => true
  }

  /** A zero or non-numeric page starts at the first record and a zero or
      non-numeric limit means a hundred; any other page or limit is the
      number its digits spell. */
  lemma PaginateZeroOrJunkIsDefault(f: Features)
    ensures ZeroOrNotANumber(Lookup(f.queryString, "page")) ==>
      PageOf(f.queryString) == DefaultPage && Paginate(f).query.skip == Some(0)
    ensures ZeroOrNotANumber(Lookup(f.queryString, "limit")) ==> Paginate(f).query.limit == Some(DefaultLimit)
    ensures !ZeroOrNotANumber(Lookup(f.queryString, "page")) ==>
      Paginate(f).query.skip == Some((ParseInt(Lookup(f.queryString, "page").value.s).value - 1) * LimitOf(f.queryString))
    ensures !ZeroOrNotANumber(Lookup(f.queryString, "limit")) ==>
      Paginate(f).query.limit == Some(ParseInt(Lookup(f.queryString, "limit").value.s).value)
  {
  }

  /** Zero, letters, an empty string and an empty list all count as absent. */
  lemma ZeroOrJunkExamples()
    ensures ZeroOrNotANumber(Some(Str("0")))
    ensures ZeroOrNotANumber(Some(Str("-0")))
    ensures ZeroOrNotANumber(Some(Str("abc")))
    ensures ZeroOrNotANumber(Some(Str("")))
    ensures ZeroOrNotANumber(Some(Arr([])))
    ensures ZeroOrNotANumber(None)
    ensures !ZeroOrNotANumber(Some(Str("2")))
  {
    assert ParseInt("abc") == None by {
      assert !IsDigit('a');
    }
    assert "-0"[1..] == "0";
  }

  /** The four stages in the controllers' order, from an empty query. */
  function Build(qs: seq<Field>): (r: Result<Query>)
    ensures r.Ok? <==> CommaList(Lookup(qs, "sort"), DefaultSort).Ok? &&
                       CommaList(Lookup(qs, "fields"), DefaultProjection).Ok?
    ensures r.Ok? ==>
      && r.value.conditions == Some(FilterConditions(qs))
      && r.value.sort == Some(CommaList(Lookup(qs, "sort"), DefaultSort).value)
      && r.value.projection == Some(CommaList(Lookup(qs, "fields"), DefaultProjection).value)
      && r.value.skip == Some((PageOf(qs) - 1) * LimitOf(qs))
      && r.value.limit == Some(LimitOf(qs))
  {
    var filtered := Filter(Features(EmptyQuery, qs));
    match Sort(filtered)
    case Err(e) => Err(e)
    case Ok(sorted) =>
      match LimitFields(sorted)
      case Err(e) => Err(e)
      case Ok(limited) => Ok(Paginate(limited).query)
  }

  lemma PriceUnchanged()
    ensures RewriteString("price") == "price"
  {
    RunOfWord("price", "");
    assert "price" + "" == "price" && "price"[..5] == "price";
    assert "price"[1..] == "rice" && "rice"[1..] == "ice" && "ice"[1..] == "ce" && "ce"[1..] == "e" && "e"[1..] == [];
  }

  /** The worked example's query string. */
  const ExampleQuery := [Field("price", Obj([Field("gte", Str("100"))])), Field("sort", Str("-price,name")),
                         Field("fields", Str("name,price")), Field("page", Str("2")), Field("limit", Str("5"))]

  lemma DropReservedExample()
    ensures DropReserved(ExampleQuery) == [ExampleQuery[0]]
  {
    var qs := ExampleQuery;
    assert qs[1..][1..][1..][1..][1..] == [];
    assert DropReserved(qs[1..][1..][1..][1..]) == [];
    assert DropReserved(qs[1..][1..][1..]) == [];
    assert DropReserved(qs[1..][1..]) == [];
    assert DropReserved(qs[1..]) == [];
  }

  lemma NumberUnchanged()
    ensures RewriteString("100") == "100"
  {
    RunOfWord("100", "");
    assert "100" + "" == "100" && "100"[..3] == "100";
    assert "100"[1..] == "00" && "00"[1..] == "0" && "0"[1..] == [];
  }

  lemma RewriteInnerExample()
    ensures RewriteJson(Obj([Field("gte", Str("100"))])) == Obj([Field("$gte", Str("100"))])
  {
    RewriteOperatorExample();
    NumberUnchanged();
    assert RewriteJson(Str("100")) == Str("100");
  }

  lemma RewriteConditionExample()
    ensures RewriteJson(Obj([Field("price", Obj([Field("gte", Str("100"))]))]))
         == Obj([Field("price", Obj([Field("$gte", Str("100"))]))])
  {
    PriceUnchanged();
    RewriteInnerExample();
  }

  /** String values are rewritten too: `?price=lt` asks for the value `$lt`. */
  lemma RewriteValueExample()
    ensures RewriteJson(Obj([Field("price", Str("lt"))])) == Obj([Field("price", Str("$lt"))])
  {
    PriceUnchanged();
    RewriteLtExample();
  }

  lemma RewriteLtExample()
    ensures RewriteString("lt") == "$lt"
  {
    RunOfWord("lt", "");
    assert "lt" + "" == "lt" && "lt"[..2] == "lt" && "lt"[2..] == [];
  }

  /** The worked example's filter: only `price[gte]=100` is a condition. */
  lemma FilterExample()
    ensures FilterConditions(ExampleQuery) == [Field("price", Obj([Field("$gte", Str("100"))]))]
  {
    DropReservedExample();
    RewriteConditionExample();
  }

  lemma LookupExample()
    ensures Lookup(ExampleQuery, "sort") == Some(Str("-price,name"))
    ensures Lookup(ExampleQuery, "fields") == Some(Str("name,price"))
    ensures Lookup(ExampleQuery, "page") == Some(Str("2"))
    ensures Lookup(ExampleQuery, "limit") == Some(Str("5"))
  {
    var q1 := ExampleQuery[1..];
    var q2 := q1[1..];
    var q3 := q2[1..];
    var q4 := q3[1..];
    assert q4 == [Field("limit", Str("5"))];
    assert q3 == [Field("page", Str("2"))] + q4;
    assert q2 == [Field("fields", Str("name,price"))] + q3;
    assert q1 == [Field("sort", Str("-price,name"))] + q2;
    assert Lookup(q4, "limit") == Some(Str("5"));
    assert Lookup(q3, "limit") == Some(Str("5"));
    assert Lookup(q3, "page") == Some(Str("2"));
    assert Lookup(q2, "limit") == Some(Str("5"));
    assert Lookup(q2, "page") == Some(Str("2"));
    assert Lookup(q1, "limit") == Some(Str("5"));
    assert Lookup(q1, "page") == Some(Str("2"));
    assert Lookup(q1, "fields") == Some(Str("name,price"));
  }

  lemma CommaListExample()
    ensures CommaList(Some(Str("-price,name")), DefaultSort) == Ok("-price name")
    ensures CommaList(Some(Str("name,price")), DefaultProjection) == Ok("name price")
  {
    assert ReplaceChar("-price,name", ',', ' ') == "-price name";
    assert ReplaceChar("name,price", ',', ' ') == "name price";
  }

  lemma ParseDigitExample()
    ensures ParseInt("2") == Some(2) && ParseInt("5") == Some(5)
  {
    assert "2"[0] == '2' && "2"[..0] == [] && AllDigits("2");
    assert DigitsValue("2") == 2;
    assert "5"[0] == '5' && "5"[..0] == [] && AllDigits("5");
    assert DigitsValue("5") == 5;
  }

  lemma PageExample()
    ensures PageOf(ExampleQuery) == 2
  {
    LookupExample();
    ParseDigitExample();
    assert NumberOf(Some(Str("2"))) == Some(2);
  }

  lemma LimitExample()
    ensures LimitOf(ExampleQuery) == 5
  {
    LookupExample();
    ParseDigitExample();
    assert NumberOf(Some(Str("5"))) == Some(5);
  }

  /** The worked example: `price[gte]=100&sort=-price,name&fields=name,price&page=2&limit=5`. */
  lemma BuildExample()
    ensures Build(ExampleQuery) == Ok(Query(Some([Field("price", Obj([Field("$gte", Str("100"))]))]),
                                            Some("-price name"), Some("name price"), Some(5), Some(5)))
  {
    FilterExample();
    LookupExample();
    CommaListExample();
    PageExample();
    LimitExample();
  }
}

=== FILE: auth_controller.dfy ===
/** The authentication controller: token extraction, the `protect` and
    `isLoggedIn` middleware, the role gate, login and logout, the password
    reset lifecycle and password update. Each handler is a function from the
    request, the store and the clock to an outcome (and the store after it).
    Hashing, SHA-256 and token signing/verification are the `Crypto` oracles,
    about which nothing is assumed. */
module AuthController {
  import opened Common
  import opened Text
  import opened UserModel

  const MsPerDay := 24 * 60 * 60 * 1000
  /** The logout cookie expires ten seconds after it is set. */
  const LogoutCookieMs := 10 * 1000
  const CookieName := "jwt"
  const LoggedOut := "loggedout"

  /** What the token verifier makes of a token: its subject and issue time
      in whole seconds, or a rejection (bad signature, expired, malformed).
      `sign(id, now)` is `jwt.sign({id})` at clock value `now`, whose token
      embeds the issue time. */
  datatype Decoded = Decoded(id: string, iat: int) | Rejected

  datatype Crypto = Crypto(
    sha256: string -> string,
    hash: string -> string,
    compare: (string, string) -> bool,
    sign: (string, int) -> string,
    verify: string -> Decoded)

  datatype Body = Body(
    name: Option<string>,
    email: Option<string>,
    department: Option<string>,
    password: Option<string>,
    passwordConfirm: Option<string>,
    passwordCurrent: Option<string>,
    passwordChangedAt: Option<int>)

  /** The parts of a request the handlers read: the Authorization header, the
      `jwt` cookie, the body, the `:token` route parameter and `req.user`. */
  datatype Request = Request(
    authorization: Option<string>,
    jwtCookie: Option<string>,
    body: Body,
    tokenParam: string,
    user: Option<User>)

  datatype Cookie = Cookie(name: string, value: string, expires: int, httpOnly: bool)

  /** How a handler ends: `next()` with the user it attached to `req.user`
      and to `res.locals.user`; `next(err)`; `next(err)` followed by a second
      `next(err)` for an exception thrown afterwards; neither `next` nor a
      response; or a response. */
  datatype Outcome =
    | Next(reqUser: Option<User>, localsUser: Option<User>)
    | Error(failure: Failure)
    | ErrorTwice(first: Failure, second: Failure)
    | NoResponse
    | Respond(status: int, cookie: Option<Cookie>, token: Option<string>)

  datatype Effect = Effect(outcome: Outcome, store: Store)

  /** An application error with its status code. */
  function AppError(k: Kind, status: int): Failure
  {
    Failure(k, Some(status))
  }

  /** An exception (or an application error built without a status). */
  function Thrown(k: Kind): Failure
  {
    Failure(k, None)
  }

  /** JavaScript truthiness of an optional string. */
  predicate Truthy(s: Option<string>)
  {
    s.Some? && s.value != ""
  }

  predicate BearerHeader(authorization: Option<string>)
  {
    authorization.Some? && StartsWith(authorization.value, "Bearer")
  }

  /** The token of a request: an Authorization header starting with `Bearer`
      wins and yields its second space-separated piece; only without such a
      header is the `jwt` cookie used. Empty strings count as no token. */
  function ExtractToken(authorization: Option<string>, cookie: Option<string>): (r: Option<string>)
    ensures r.Some? ==> r.value != ""
    ensures BearerHeader(authorization) && r.Some? ==> ' ' !in r.value && ' ' in authorization.value
    ensures BearerHeader(authorization) && ' ' !in authorization.value ==> r.None?
    ensures !BearerHeader(authorization) ==> r == (if Truthy(cookie) then cookie else None)
  {
    if BearerHeader(authorization) then
      var parts := Split(authorization.value, ' ');
      SplitHasSecondPiece(authorization.value, ' ');
      if |parts| >= 2 && parts[1] != "" then Some(parts[1]) else None
    else if Truthy(cookie) then cookie
    else None
  }

  /** A header `Bearer <t>` (possibly followed by more space-separated text)
      yields `t`, whatever the cookie says. */
  lemma BearerTakesPrecedence(t: string, rest: string, cookie: Option<string>)
    requires t != "" && ' ' !in t
    requires rest == [] || rest[0] == ' '
    ensures ExtractToken(Some("Bearer " + t + rest), cookie) == Some(t)
  {
    var h := "Bearer " + t + rest;
    assert h[..6] == "Bearer";
    assert h == "Bearer" + [' '] + (t + rest);
    SplitAtFirst("Bearer", ' ', t + rest);
    if rest == [] {
      assert t + rest == t;
      SplitWithoutSep(t, ' ');
    } else {
      assert t + rest == t + [' '] + rest[1..];
      SplitAtFirst(t, ' ', rest[1..]);
    }
  }

  /** The record as `findById` returns it: `password` and `active` are not selected. */
  function Selected(u: User): User
  {
    u.(password := None, active := None)
  }

  /** The verifier accepted the token and index `i` holds its subject, whose
      password has not changed since the token was issued. */
  predicate Accepts(store: Store, d: Decoded, i: int)
  {
    d.Decoded? && IsFirstMatch(store, ById(d.id), i) && !ChangedPasswordAfter(store[i], d.iat)
  }

  /** The verifier accepted the token and index `i` holds its subject, but
      the password changed after the token was issued. */
  predicate Outdated(store: Store, d: Decoded, i: int)
  {
    d.Decoded? && IsFirstMatch(store, ById(d.id), i) && ChangedPasswordAfter(store[i], d.iat)
  }

  /** The result of the verification steps shared by `protect` and `isLoggedIn`. */
  datatype Check = BadToken | NoUser | Stale | Fresh(user: User)

  /** Verify the token, load its subject, compare the password-change time. */
  function CheckToken(token: string, store: Store, crypto: Crypto): (r: Check)
    ensures r.BadToken? <==> crypto.verify(token).Rejected?
    ensures r.NoUser? <==> (crypto.verify(token).Decoded? &&
      forall j :: 0 <= j < |store| ==> !(Visible(store[j]) && store[j].id == crypto.verify(token).id))
    ensures r.Stale? <==> exists i :: Outdated(store, crypto.verify(token), i)
    ensures r.Fresh? <==> exists i :: Accepts(store, crypto.verify(token), i)
    ensures r.Fresh? ==> exists i :: Accepts(store, crypto.verify(token), i) && r.user == store[i]
  {
    match crypto.verify(token)
    case Rejected => BadToken
    case Decoded(id, iat) =>
      match Find(store, ById(id))
      case None => NoUser
      case Some(i) =>
        assert forall k :: IsFirstMatch(store, ById(id), k) ==> k == i;
        if ChangedPasswordAfter(store[i], iat) then
          assert Outdated(store, crypto.verify(token), i);
          assert forall k :: !Accepts(store, crypto.verify(token), k);
          Stale
        else
          assert Accepts(store, crypto.verify(token), i);
          assert forall k :: !Outdated(store, crypto.verify(token), k);
          Fresh(store[i])
  }

  /** `protect`, as written: no token is a 401; a rejected token is forwarded;
      a missing user calls `next` with a 401 and, lacking a `return`, goes on
      to read a property of `null`, whose TypeError is forwarded as well; a
      password changed after issue returns an error object without calling
      `next`; otherwise the user is attached and `next()` is called. */
  function Protect(req: Request, store: Store, crypto: Crypto): (r: Outcome)
    ensures ExtractToken(req.authorization, req.jwtCookie).None? ==> r == Error(AppError(NotLoggedIn, 401))
    ensures var t := ExtractToken(req.authorization, req.jwtCookie);
      t.Some? && crypto.verify(t.value).Rejected? ==> r == Error(Thrown(TokenRejected))
    ensures r.Next? ==> r.reqUser.Some? && r.localsUser == r.reqUser
    ensures !r.Respond?
  {
    match ExtractToken(req.authorization, req.jwtCookie)
    case None => Error(AppError(NotLoggedIn, 401))
    case Some(token) =>
      match CheckToken(token, store, crypto)
      case BadToken => Error(Thrown(TokenRejected))
      case NoUser => ErrorTwice(AppError(UserGone, 401), Thrown(TypeError))
      case Stale => NoResponse
      case Fresh(u) => Next(Some(Selected(u)), Some(Selected(u)))
  }

  /** `protect` grants access exactly when a token is present, verifies, and
      names a visible user whose password has not changed since; that user
      is what it attaches. */
  lemma ProtectGrantsIff(req: Request, store: Store, crypto: Crypto)
    ensures var t := ExtractToken(req.authorization, req.jwtCookie);
      Protect(req, store, crypto).Next? <==> t.Some? && exists i :: Accepts(store, crypto.verify(t.value), i)
    ensures var t := ExtractToken(req.authorization, req.jwtCookie);
      forall i :: t.Some? && Accepts(store, crypto.verify(t.value), i) ==>
        Protect(req, store, crypto) == Next(Some(Selected(store[i])), Some(Selected(store[i])))
  {
    var t := ExtractToken(req.authorization, req.jwtCookie);
    if t.Some? {
      forall i | Accepts(store, crypto.verify(t.value), i)
        ensures Protect(req, store, crypto) == Next(Some(Selected(store[i])), Some(Selected(store[i])))
      {
        var c := CheckToken(t.value, store, crypto);
        assert c.Fresh?;
        var k :| Accepts(store, crypto.verify(t.value), k) && c.user == store[k];
        FirstMatchUnique(store, ById(crypto.verify(t.value).id), i, k);
      }
    }
  }

  /** As written, a token older than the last password change leaves the
      request without `next` and without a response. */
  lemma ProtectStaleTokenHangs(req: Request, store: Store, crypto: Crypto)
    ensures var t := ExtractToken(req.authorization, req.jwtCookie);
      Protect(req, store, crypto) == NoResponse <==> t.Some? && exists i :: Outdated(store, crypto.verify(t.value), i)
  {
  }

  /** As written, `next` runs twice, first with a 401 and then with the
      TypeError, exactly when a token is present and verifies but names no
      visible user. */
  lemma ProtectMissingUserCallsNextTwice(req: Request, store: Store, crypto: Crypto)
    ensures var t := ExtractToken(req.authorization, req.jwtCookie);
      Protect(req, store, crypto) == ErrorTwice(AppError(UserGone, 401), Thrown(TypeError)) <==>
        && t.Some?
        && crypto.verify(t.value).Decoded?
        && forall j :: 0 <= j < |store| ==> !(Visible(store[j]) && store[j].id == crypto.verify(t.value).id)
  {
  }

  /** `protect` as evidently intended: both rejection paths end in a single
      `next(err)` with a 401. */
  function ProtectIntended(req: Request, store: Store, crypto: Crypto): (r: Outcome)
    ensures r.Next? || r.Error?
    ensures r.Error? && r.failure.kind != TokenRejected ==> r.failure.status == Some(401)
    ensures ExtractToken(req.authorization, req.jwtCookie).None? ==> r == Error(AppError(NotLoggedIn, 401))
    ensures var t := ExtractToken(req.authorization, req.jwtCookie);
      t.Some? && crypto.verify(t.value).Rejected? ==> r == Error(Thrown(TokenRejected))
  {
    match ExtractToken(req.authorization, req.jwtCookie)
    case None => Error(AppError(NotLoggedIn, 401))
    case Some(token) =>
      match CheckToken(token, store, crypto)
      case BadToken => Error(Thrown(TokenRejected))
      case NoUser => Error(AppError(UserGone, 401))
      case Stale => Error(AppError(PasswordChanged, 401))
      case Fresh(u) => Next(Some(Selected(u)), Some(Selected(u)))
  }

  /** The intended `protect` grants on the same requests as the one written,
      and every other request gets exactly one `next(err)`: a stale token is
      rejected with a 401 instead of hanging. */
  lemma ProtectIntendedAgrees(req: Request, store: Store, crypto: Crypto)
    ensures Protect(req, store, crypto).Next? ==> ProtectIntended(req, store, crypto) == Protect(req, store, crypto)
    ensures ProtectIntended(req, store, crypto).Next? ==> Protect(req, store, crypto).Next?
    ensures Protect(req, store, crypto).NoResponse? ==>
      ProtectIntended(req, store, crypto) == Error(AppError(PasswordChanged, 401))
    ensures Protect(req, store, crypto).ErrorTwice? ==>
      ProtectIntended(req, store, crypto) == Error(Protect(req, store, crypto).first)
  {
  }

  /** `isLoggedIn`: only the cookie is consulted; every path calls `next()`
      without an error; `res.locals.user` is set only when the cookie's
      token verifies and names a visible user whose password has not changed
      since; `req.user` is never set. */
  function IsLoggedIn(req: Request, store: Store, crypto: Crypto): (r: Outcome)
    ensures r.Next? && r.reqUser.None?
    ensures r.localsUser.Some? <==>
      Truthy(req.jwtCookie) && exists i :: Accepts(store, crypto.verify(req.jwtCookie.value), i)
    ensures r.localsUser.Some? ==>
      exists i :: Accepts(store, crypto.verify(req.jwtCookie.value), i) && r.localsUser == Some(Selected(store[i]))
  {
    if !Truthy(req.jwtCookie) then Next(None, None)
    else
      match CheckToken(req.jwtCookie.value, store, crypto)
      case Fresh(u) => Next(None, Some(Selected(u)))
      case _ => Next(None, None)
  }

  /** `restrictTo(...roles)`: `next()` exactly when the attached user's role
      is allowed, a 403 otherwise; without an attached user reading its role
      throws. */
  function RestrictTo(roles: seq<Role>, req: Request): (r: Outcome)
    ensures req.user.None? ==> r == Error(Thrown(TypeError))
    ensures req.user.Some? ==> (r.Next? <==> req.user.value.role in roles)
    ensures req.user.Some? && !r.Next? ==> r == Error(AppError(Forbidden, 403))
    ensures r.Next? ==> r == Next(None, None)
  {
    match req.user
    case None => Error(Thrown(TypeError))
    case Some(u) => if u.role in roles then Next(None, None) else Error(AppError(Forbidden, 403))
  }

  /** The middleware chain of an access-restricted route: `protect` (as
      intended), then the role gate on the user it attached. */
  function Guard(roles: seq<Role>, req: Request, store: Store, crypto: Crypto): Outcome
  {
    match ProtectIntended(req, store, crypto)
    case Next(u, _) => RestrictTo(roles, req.(user := u))
    case other => other
  }

  /** The chain admits exactly the requests whose token names a visible user
      with an unchanged password and an allowed role; it refuses an
      authenticated user with another role with a 403. */
  lemma GuardAdmitsIff(roles: seq<Role>, req: Request, store: Store, crypto: Crypto)
    ensures var t := ExtractToken(req.authorization, req.jwtCookie);
      Guard(roles, req, store, crypto).Next? <==>
        t.Some? && exists i :: Accepts(store, crypto.verify(t.value), i) && store[i].role in roles
    ensures var t := ExtractToken(req.authorization, req.jwtCookie);
      forall i :: t.Some? && Accepts(store, crypto.verify(t.value), i) && store[i].role !in roles ==>
        Guard(roles, req, store, crypto) == Error(AppError(Forbidden, 403))
  {
    ProtectGrantsIff(req, store, crypto);
    var t := ExtractToken(req.authorization, req.jwtCookie);
    if t.Some? && ProtectIntended(req, store, crypto).Next? {
      var c := CheckToken(t.value, store, crypto);
      var k :| Accepts(store, crypto.verify(t.value), k) && c.user == store[k];
      forall i | Accepts(store, crypto.verify(t.value), i)
        ensures i == k
      {
        FirstMatchUnique(store, ById(crypto.verify(t.value).id), i, k);
      }
    }
  }

  /** When the cookie expires: `days` whole days after `now`. */
  function CookieExpiry(now: int, days: int): (r: int)
    ensures r - now == days * MsPerDay
  {
    now + days * 24 * 60 * 60 * 1000
  }

  /** `createSendToken`: sign a token for the user's id at `now`, set it as
      an http-only `jwt` cookie and return it. */
  function SendToken(u: User, status: int, now: int, cookieDays: int, crypto: Crypto): (r: Outcome)
    ensures r.Respond? && r.status == status
    ensures r.token == Some(crypto.sign(u.id, now))
    ensures r.cookie == Some(Cookie(CookieName, crypto.sign(u.id, now), CookieExpiry(now, cookieDays), true))
  {
    var token := crypto.sign(u.id, now);
    Respond(status, Some(Cookie(CookieName, token, CookieExpiry(now, cookieDays), true)), Some(token))
  }

  /** `logout`: overwrite the cookie with a non-token that expires in ten seconds. */
  function Logout(now: int): (r: Outcome)
    ensures r.Respond? && r.status == 200 && r.token.None?
    ensures r.cookie.Some? && r.cookie.value.name == CookieName && r.cookie.value.httpOnly
    ensures r.cookie.value.expires - now == LogoutCookieMs
  {
    Respond(200, Some(Cookie(CookieName, LoggedOut, now + LogoutCookieMs, true)), None)
  }

  /** A browser that sends back the logout cookie is not logged in, provided
      the verifier rejects that value (it is no signed token). */
  lemma LogoutCookieAuthenticatesNobody(now: int, req: Request, store: Store, crypto: Crypto)
    requires req.authorization.None?
    requires req.jwtCookie == Some(Logout(now).cookie.value.value)
    requires crypto.verify(LoggedOut).Rejected?
    ensures Protect(req, store, crypto) == Error(Thrown(TokenRejected))
    ensures IsLoggedIn(req, store, crypto) == Next(None, None)
  {
  }

  /** Index `i` holds the visible account the login email names and its
      stored hash matches the presented password. */
  predicate LoginMatch(req: Request, store: Store, crypto: Crypto, i: int)
    requires req.body.email.Some? && req.body.password.Some?
  {
    && IsFirstMatch(store, ByEmail(Lower(req.body.email.value)), i)
    && store[i].password.Some?
    && crypto.compare(req.body.password.value, store[i].password.value)
  }

  /** `login`, parameterised by the status its wrong-credentials error
      carries. A missing email or password is a 400; an unknown email or a
      wrong password is an IncorrectLogin error; otherwise a token is issued. */
  function LoginWith(req: Request, store: Store, now: int, cookieDays: int, crypto: Crypto, wrongStatus: Option<int>): (r: Outcome)
    ensures !Truthy(req.body.email) || !Truthy(req.body.password) ==> r == Error(AppError(MissingCredentials, 400))
    ensures r.Respond? ==> (r.status == 200 &&
      exists i :: LoginMatch(req, store, crypto, i) && r == SendToken(store[i], 200, now, cookieDays, crypto))
    ensures Truthy(req.body.email) && Truthy(req.body.password) && !r.Respond? ==>
      r.Error? && (r.failure.kind == IllegalArguments || r == Error(Failure(IncorrectLogin, wrongStatus)))
    ensures Truthy(req.body.email) && Truthy(req.body.password) && (exists i :: LoginMatch(req, store, crypto, i)) ==> r.Respond?
    ensures Truthy(req.body.email) && Truthy(req.body.password) && !r.Respond? ==>
      var f := Find(store, ByEmail(Lower(req.body.email.value)));
      f.None? || store[f.value].password.Some? ==> r == Error(Failure(IncorrectLogin, wrongStatus))
    ensures forall i ::
      (Truthy(req.body.email) && Truthy(req.body.password) &&
       IsFirstMatch(store, ByEmail(Lower(req.body.email.value)), i) && store[i].password.None?) ==>
        r == Error(Thrown(IllegalArguments))
  {
    if !Truthy(req.body.email) || !Truthy(req.body.password) then Error(AppError(MissingCredentials, 400))
    else
      match Find(store, ByEmail(Lower(req.body.email.value)))
      case None => Error(Failure(IncorrectLogin, wrongStatus))
      case Some(i) =>
        assert forall k :: IsFirstMatch(store, ByEmail(Lower(req.body.email.value)), k) ==> k == i;
        match store[i].password
        case None => Error(Thrown(IllegalArguments))
        case Some(h) =>
          if !crypto.compare(req.body.password.value, h) then Error(Failure(IncorrectLogin, wrongStatus))
          else SendToken(store[i], 200, now, cookieDays, crypto)
  }

  /** `login` as written: the 401 is passed to `next` as a second argument
      instead of to the error, so the error carries no status. */
  function Login(req: Request, store: Store, now: int, cookieDays: int, crypto: Crypto): Outcome
  {
    LoginWith(req, store, now, cookieDays, crypto, None)
  }

  /** `login` as evidently intended: wrong credentials are a 401. */
  function LoginIntended(req: Request, store: Store, now: int, cookieDays: int, crypto: Crypto): Outcome
  {
    LoginWith(req, store, now, cookieDays, crypto, Some(401))
  }

  /** A deactivated account cannot log in: with no other account under that
      email, login fails even with the right password. */
  lemma InactiveCannotLogin(req: Request, store: Store, now: int, cookieDays: int, crypto: Crypto)
    requires Truthy(req.body.email) && Truthy(req.body.password)
    requires forall j :: 0 <= j < |store| && store[j].email == Some(Lower(req.body.email.value)) ==>
      store[j].active == Some(false)
    ensures Login(req, store, now, cookieDays, crypto) == Error(Failure(IncorrectLogin, None))
  {
  }

  /** The one first match for a login email, if any. */
  lemma LoginMatchCandidates(req: Request, store: Store)
    requires Truthy(req.body.email)
    ensures var f := Find(store, ByEmail(Lower(req.body.email.value)));
      f.Some? ==> IsFirstMatch(store, ByEmail(Lower(req.body.email.value)), f.value)
  {
  }

  /** As written, wrong credentials for an account that has a password give
      an error without a status code. */
  lemma LoginWrongCredentialsUnstatused(req: Request, store: Store, now: int, cookieDays: int, crypto: Crypto)
    requires Truthy(req.body.email) && Truthy(req.body.password)
    requires forall i :: IsFirstMatch(store, ByEmail(Lower(req.body.email.value)), i) ==>
      store[i].password.Some? && !crypto.compare(req.body.password.value, store[i].password.value)
    ensures Login(req, store, now, cookieDays, crypto) == Error(Failure(IncorrectLogin, None))
  {
    LoginMatchCandidates(req, store);
  }

  /** As intended, the same requests are refused with a 401. */
  lemma LoginIntendedWrongCredentials401(req: Request, store: Store, now: int, cookieDays: int, crypto: Crypto)
    requires Truthy(req.body.email) && Truthy(req.body.password)
    requires forall i :: IsFirstMatch(store, ByEmail(Lower(req.body.email.value)), i) ==>
      store[i].password.Some? && !crypto.compare(req.body.password.value, store[i].password.value)
    ensures LoginIntended(req, store, now, cookieDays, crypto) == Error(AppError(IncorrectLogin, 401))
  {
    LoginMatchCandidates(req, store);
  }

  /** The record after a reset token is issued. */
  function WithResetToken(u: User, digest: string, now: int): User
  {
    u.(passwordResetToken := Some(digest), passwordResetExpires := Some(now + ResetWindowMs))
  }

  /** The record after its reset fields are cleared. */
  function WithoutResetToken(u: User): User
  {
    u.(passwordResetToken := None, passwordResetExpires := None)
  }

  /** `forgotPassword`. An unknown email is a 404 and changes nothing. For a
      known one the token's digest and expiry are saved (without validation)
      and the plain token is mailed; when delivery fails the reset fields are
      cleared again and the request fails with a 500. `random` is the
      generated token and `delivered` whether the mail went out. */
  function ForgotPassword(req: Request, store: Store, now: int, random: string, delivered: bool, crypto: Crypto): (r: Effect)
    ensures |r.store| == |store|
    ensures (req.body.email.None? || Find(store, ByEmail(Lower(req.body.email.value))).None?) ==>
      r == Effect(Error(AppError(NoSuchEmail, 404)), store)
    ensures forall i :: req.body.email.Some? && IsFirstMatch(store, ByEmail(Lower(req.body.email.value)), i) ==>
      if delivered then
        r == Effect(Respond(200, None, None), store[i := WithResetToken(store[i], crypto.sha256(random), now)])
      else
        r == Effect(Error(AppError(EmailNotSent, 500)), store[i := WithoutResetToken(store[i])])
  {
    match req.body.email
    case None => Effect(Error(AppError(NoSuchEmail, 404)), store)
    case Some(email) =>
      match Find(store, ByEmail(Lower(email)))
      case None => Effect(Error(AppError(NoSuchEmail, 404)), store)
      case Some(i) =>
        assert forall k :: IsFirstMatch(store, ByEmail(Lower(email)), k) ==> k == i;
        var (plain, issued) := CreatePasswordResetToken(store[i], random, crypto.sha256, now);
        // Saving without validation cannot fail: the password is not touched.
        var saved := Save(Load(issued, false), now, crypto.hash, false).value;
        if delivered then Effect(Respond(200, None, None), store[i := saved])
        else
          var cleared := Save(Load(WithoutResetToken(saved), false), now, crypto.hash, false).value;
          Effect(Error(AppError(EmailNotSent, 500)), store[i := cleared])
  }

  /** The record a successful reset writes: the new password hashed, the
      confirmation dropped, the change recorded one second in the past and
      both reset fields cleared. */
  function AfterReset(u: User, password: string, now: int, crypto: Crypto): User
  {
    u.(password := Some(crypto.hash(password)), passwordConfirm := None,
       passwordChangedAt := Some(now - ChangeSkewMs), passwordResetToken := None, passwordResetExpires := None)
  }

  /** The document `resetPassword` saves for the matched record `u`: loaded
      without its password, given the new password and confirmation, and
      stripped of its reset token. */
  function ResetDoc(u: User, req: Request): Doc
  {
    var withNew := AssignPassword(Load(u, false), req.body.password, req.body.passwordConfirm);
    withNew.(user := WithoutResetToken(withNew.user))
  }

  /** `resetPassword`. The presented token is hashed and the first visible
      record holding that digest with an expiry strictly after `now` is
      looked up; none is a 400. Otherwise the new password and confirmation
      are assigned, the reset fields cleared and the record saved with
      validation; a validation failure is forwarded and nothing is written
      (the token stays usable); a success logs the user in. */
  function ResetPassword(req: Request, store: Store, now: int, cookieDays: int, crypto: Crypto): (r: Effect)
    ensures |r.store| == |store|
    ensures Find(store, ByResetToken(crypto.sha256(req.tokenParam), now)).None? ==>
      r == Effect(Error(AppError(ResetTokenInvalid, 400)), store)
    ensures !r.outcome.Respond? ==> r.store == store
    ensures r.outcome.Respond? ==>
      && req.body.password.Some?
      && |req.body.password.value| >= MinPasswordLength
      && req.body.passwordConfirm == req.body.password
      && exists i :: IsFirstMatch(store, ByResetToken(crypto.sha256(req.tokenParam), now), i) &&
           r.store == store[i := AfterReset(store[i], req.body.password.value, now, crypto)] &&
           r.outcome == SendToken(r.store[i], 200, now, cookieDays, crypto)
    ensures forall i :: (IsFirstMatch(store, ByResetToken(crypto.sha256(req.tokenParam), now), i) &&
      Present(store[i].name) && Present(store[i].email) && Present(store[i].department) &&
      PasswordValid(req.body.password) && req.body.passwordConfirm == req.body.password) ==>
        r.outcome.Respond?
    ensures forall i :: (IsFirstMatch(store, ByResetToken(crypto.sha256(req.tokenParam), now), i) &&
      Save(ResetDoc(store[i], req), now, crypto.hash, true).Err?) ==>
        r == Effect(Error(Save(ResetDoc(store[i], req), now, crypto.hash, true).failure), store)
    ensures !r.outcome.Respond? ==> r.outcome.Error?
  {
    var digest := crypto.sha256(req.tokenParam);
    match Find(store, ByResetToken(digest, now))
    case None => Effect(Error(AppError(ResetTokenInvalid, 400)), store)
    case Some(i) =>
      match Save(ResetDoc(store[i], req), now, crypto.hash, true)
      case Err(f) => Effect(Error(f), store)
      case Ok(saved) =>
        assert saved == AfterReset(store[i], req.body.password.value, now, crypto);
        Effect(SendToken(saved, 200, now, cookieDays, crypto), store[i := saved])
  }

  /** No record other than the `i`-th holds `digest` as its reset token. */
  predicate DigestOnlyAt(store: Store, digest: string, i: int)
  {
    forall j :: 0 <= j < |store| && j != i ==> store[j].passwordResetToken != Some(digest)
  }

  /** A reset token is accepted only before its expiry: at or after the
      expiry the same token is a 400, whoever holds it. */
  lemma ResetRejectedWhenExpired(req: Request, store: Store, now: int, cookieDays: int, crypto: Crypto)
    requires forall j :: 0 <= j < |store| && store[j].passwordResetToken == Some(crypto.sha256(req.tokenParam)) ==>
      store[j].passwordResetExpires.Some? && store[j].passwordResetExpires.value <= now
    ensures ResetPassword(req, store, now, cookieDays, crypto) == Effect(Error(AppError(ResetTokenInvalid, 400)), store)
  {
  }

  /** A reset token is consumed once: after a successful reset, presenting
      the same token again, at any time, is a 400 (no other record holding
      the same digest). */
  lemma {:induction false} ResetTokenSingleUse(req: Request, req2: Request, store: Store, now: int, later: int, cookieDays: int, crypto: Crypto)
    requires ResetPassword(req, store, now, cookieDays, crypto).outcome.Respond?
    requires req2.tokenParam == req.tokenParam
    requires forall i :: IsFirstMatch(store, ByResetToken(crypto.sha256(req.tokenParam), now), i) ==>
      DigestOnlyAt(store, crypto.sha256(req.tokenParam), i)
    ensures var after := ResetPassword(req, store, now, cookieDays, crypto).store;
      ResetPassword(req2, after, later, cookieDays, crypto) == Effect(Error(AppError(ResetTokenInvalid, 400)), after)
  {
    var r := ResetPassword(req, store, now, cookieDays, crypto);
    var digest := crypto.sha256(req.tokenParam);
    var i :| IsFirstMatch(store, ByResetToken(digest, now), i) &&
      r.store == store[i := AfterReset(store[i], req.body.password.value, now, crypto)];
    assert DigestOnlyAt(store, digest, i);
    forall j | 0 <= j < |r.store|
      ensures !Matches(ByResetToken(digest, later), r.store[j])
    {
    }
  }

  /** The whole lifecycle: the token mailed by a successful forgot-password
      request resets the password while it is fresh, and a second use fails. */
  lemma {:induction false} ForgotThenReset(forgot: Request, store: Store, now: int, random: string, crypto: Crypto,
                                           reset: Request, later: int, again: int, cookieDays: int)
    requires forgot.body.email.Some?
    requires Find(store, ByEmail(Lower(forgot.body.email.value))).Some?
    requires forall j :: 0 <= j < |store| ==> store[j].passwordResetToken != Some(crypto.sha256(random))
    requires now <= later < now + ResetWindowMs
    requires reset.tokenParam == random
    requires reset.body.password.Some? && |reset.body.password.value| >= MinPasswordLength
    requires reset.body.passwordConfirm == reset.body.password
    requires var u := store[Find(store, ByEmail(Lower(forgot.body.email.value))).value];
      Present(u.name) && Present(u.email) && Present(u.department)
    ensures var s1 := ForgotPassword(forgot, store, now, random, true, crypto).store;
      ResetPassword(reset, s1, later, cookieDays, crypto).outcome.Respond?
    ensures var s1 := ForgotPassword(forgot, store, now, random, true, crypto).store;
      var s2 := ResetPassword(reset, s1, later, cookieDays, crypto).store;
      ResetPassword(reset, s2, again, cookieDays, crypto).outcome == Error(AppError(ResetTokenInvalid, 400))
  {
    var email := Lower(forgot.body.email.value);
    var i := Find(store, ByEmail(email)).value;
    var digest := crypto.sha256(random);
    var s1 := ForgotPassword(forgot, store, now, random, true, crypto).store;
    assert s1 == store[i := WithResetToken(store[i], digest, now)];
    assert IsFirstMatch(s1, ByResetToken(digest, later), i);
    assert Find(s1, ByResetToken(digest, later)) == Some(i);
    var withNew := AssignPassword(Load(s1[i], false), reset.body.password, reset.body.passwordConfirm);
    var d := withNew.(user := WithoutResetToken(withNew.user));
    assert Valid(d);
    assert ResetPassword(reset, s1, later, cookieDays, crypto).outcome.Respond?;
    assert DigestOnlyAt(s1, digest, i);
    ResetTokenSingleUse(reset, reset, s1, later, again, cookieDays, crypto);
  }

  /** When the mail cannot be delivered, the token just generated cannot be
      used: the rollback leaves no record holding its digest. */
  lemma DeliveryFailureLeavesNoToken(forgot: Request, store: Store, now: int, random: string, crypto: Crypto,
                                     reset: Request, later: int, cookieDays: int)
    requires forall j :: 0 <= j < |store| ==> store[j].passwordResetToken != Some(crypto.sha256(random))
    requires reset.tokenParam == random
    ensures var s1 := ForgotPassword(forgot, store, now, random, false, crypto).store;
      ResetPassword(reset, s1, later, cookieDays, crypto) == Effect(Error(AppError(ResetTokenInvalid, 400)), s1)
  {
    var s1 := ForgotPassword(forgot, store, now, random, false, crypto).store;
    forall j | 0 <= j < |s1|
      ensures s1[j].passwordResetToken != Some(crypto.sha256(random))
    {
    }
  }

  /** The stored record after `updatePassword` saves `password` and
      `confirm` over `u`: a password that differs from the stored hash is
      replaced by its own hash, the confirmation is dropped and the change
      time set one second in the past; assigning the stored hash itself
      modifies nothing, so only the confirmation is written. */
  function AfterUpdate(u: User, password: string, confirm: Option<string>, now: int, crypto: Crypto): User
  {
    if u.password == Some(password) then u.(passwordConfirm := confirm)
    else u.(password := Some(crypto.hash(password)), passwordConfirm := None, passwordChangedAt := Some(now - ChangeSkewMs))
  }

  /** The document `updatePassword` saves for the current record `u`: loaded
      with its password and given the new password and confirmation. */
  function UpdateDoc(u: User, req: Request): Doc
  {
    AssignPassword(Load(u, true), req.body.password, req.body.passwordConfirm)
  }

  /** `updatePassword` (behind `protect`). The current user is reloaded with
      its password; a missing user or a missing current password throws; a
      current password that does not match is a 401; otherwise the new
      password and confirmation are saved with validation and a fresh token
      is issued. */
  function UpdatePassword(req: Request, store: Store, now: int, cookieDays: int, crypto: Crypto): (r: Effect)
    ensures |r.store| == |store|
    ensures !r.outcome.Respond? ==> r.store == store
    ensures req.user.None? ==> r.outcome == Error(Thrown(TypeError))
    ensures req.user.Some? && Find(store, ById(req.user.value.id)).None? ==> r.outcome == Error(Thrown(TypeError))
    ensures forall i :: (req.user.Some? && IsFirstMatch(store, ById(req.user.value.id), i) &&
      (req.body.passwordCurrent.None? || store[i].password.None?)) ==>
        r.outcome == Error(Thrown(IllegalArguments))
    ensures r.outcome.Respond? ==>
      && req.user.Some?
      && req.body.passwordCurrent.Some?
      && req.body.password.Some?
      && |req.body.password.value| >= MinPasswordLength
      && req.body.passwordConfirm == req.body.password
      && exists i :: IsFirstMatch(store, ById(req.user.value.id), i) &&
           store[i].password.Some? &&
           crypto.compare(req.body.passwordCurrent.value, store[i].password.value) &&
           r.store == store[i := AfterUpdate(store[i], req.body.password.value, req.body.passwordConfirm, now, crypto)] &&
           r.outcome == SendToken(r.store[i], 200, now, cookieDays, crypto)
    ensures forall i :: (req.user.Some? && IsFirstMatch(store, ById(req.user.value.id), i) &&
      req.body.passwordCurrent.Some? && store[i].password.Some? &&
      !crypto.compare(req.body.passwordCurrent.value, store[i].password.value)) ==>
        r.outcome == Error(AppError(WrongCurrentPassword, 401))
    ensures forall i :: (req.user.Some? && IsFirstMatch(store, ById(req.user.value.id), i) &&
      req.body.passwordCurrent.Some? && store[i].password.Some? &&
      crypto.compare(req.body.passwordCurrent.value, store[i].password.value) &&
      Present(store[i].name) && Present(store[i].email) && Present(store[i].department) &&
      PasswordValid(req.body.password) && req.body.passwordConfirm == req.body.password) ==>
        r.outcome.Respond?
    ensures forall i :: (req.user.Some? && IsFirstMatch(store, ById(req.user.value.id), i) &&
      req.body.passwordCurrent.Some? && store[i].password.Some? &&
      crypto.compare(req.body.passwordCurrent.value, store[i].password.value) &&
      Save(UpdateDoc(store[i], req), now, crypto.hash, true).Err?) ==>
        r == Effect(Error(Save(UpdateDoc(store[i], req), now, crypto.hash, true).failure), store)
    ensures !r.outcome.Respond? ==> r.outcome.Error?
  {
    match req.user
    case None => Effect(Error(Thrown(TypeError)), store)
    case Some(current) =>
      match Find(store, ById(current.id))
      case None => Effect(Error(Thrown(TypeError)), store)
      case Some(i) =>
        assert forall k :: IsFirstMatch(store, ById(current.id), k) ==> k == i;
        if req.body.passwordCurrent.None? || store[i].password.None? then Effect(Error(Thrown(IllegalArguments)), store)
        else if !crypto.compare(req.body.passwordCurrent.value, store[i].password.value) then
          Effect(Error(AppError(WrongCurrentPassword, 401)), store)
        else
          match Save(UpdateDoc(store[i], req), now, crypto.hash, true)
          case Err(f) => Effect(Error(f), store)
          case Ok(saved) => Effect(SendToken(saved, 200, now, cookieDays, crypto), store[i := saved])
  }

  /** After a password update the session cookie it sets is accepted by
      `protect`, given the verifier's law for the token signed at `now`: it
      decodes to the user's id and `iat` = the floor of `now` in seconds. */
  lemma {:induction false} UpdatedSessionAccepted(req: Request, store: Store, now: int, cookieDays: int, crypto: Crypto,
                                                  next: Request)
    requires UpdatePassword(req, store, now, cookieDays, crypto).outcome.Respond?
    requires req.body.password != Load(store[Find(store, ById(req.user.value.id)).value], true).user.password
    requires now >= ChangeSkewMs
    requires crypto.verify(crypto.sign(req.user.value.id, now)) == Decoded(req.user.value.id, now / MsPerSecond)
    requires crypto.sign(req.user.value.id, now) != ""
    requires next.authorization.None?
    requires next.jwtCookie == Some(UpdatePassword(req, store, now, cookieDays, crypto).outcome.cookie.value.value)
    ensures next.jwtCookie == Some(crypto.sign(req.user.value.id, now))
    ensures Protect(next, UpdatePassword(req, store, now, cookieDays, crypto).store, crypto).Next?
  {
    var r := UpdatePassword(req, store, now, cookieDays, crypto);
    var id := req.user.value.id;
    var i := Find(store, ById(id)).value;
    var d := AssignPassword(Load(store[i], true), req.body.password, req.body.passwordConfirm);
    assert d.passwordModified && !d.isNew;
    assert Save(d, now, crypto.hash, true).Ok?;
    SaveKeepsFreshTokens(d, now, crypto.hash, true, now);
    assert r.store[i] == Save(d, now, crypto.hash, true).value;
    assert IsFirstMatch(r.store, ById(id), i);
    assert Accepts(r.store, crypto.verify(next.jwtCookie.value), i);
    ProtectGrantsIff(next, r.store, crypto);
  }

  /** The fields `signup` hands to `User.create`, as written: the department
      is not among them. */
  function SignupFields(b: Body): NewUser
  {
    NewUser(b.name, b.email, None, b.password, b.passwordConfirm, None, b.passwordChangedAt)
  }

  /** The fields as evidently intended: the department is passed on. */
  function SignupFieldsIntended(b: Body): NewUser
  {
    NewUser(b.name, b.email, b.department, b.password, b.passwordConfirm, None, b.passwordChangedAt)
  }

  /** `signup` over a given field selection: create the user (id `id`) and
      log it in with a 201; a creation failure is forwarded. */
  function SignupWith(fields: NewUser, store: Store, id: string, now: int, cookieDays: int, crypto: Crypto): (r: Effect)
    ensures r.outcome.Respond? ==> Create(store, id, fields, now, crypto.hash).Ok? && r.outcome.status == 201
    ensures r.outcome.Respond? ==> r.store == Create(store, id, fields, now, crypto.hash).value
    ensures !r.outcome.Respond? ==> r.store == store && r.outcome.Error?
    ensures var c := Create(store, id, fields, now, crypto.hash);
      c.Ok? ==> r == Effect(SendToken(c.value[|store|], 201, now, cookieDays, crypto), c.value)
    ensures var c := Create(store, id, fields, now, crypto.hash);
      c.Err? ==> r == Effect(Error(c.failure), store)
  {
    match Create(store, id, fields, now, crypto.hash)
    case Err(f) => Effect(Error(f), store)
    case Ok(s) => Effect(SendToken(s[|store|], 201, now, cookieDays, crypto), s)
  }

  function Signup(req: Request, store: Store, id: string, now: int, cookieDays: int, crypto: Crypto): Effect
  {
    SignupWith(SignupFields(req.body), store, id, now, cookieDays, crypto)
  }

  function SignupIntended(req: Request, store: Store, id: string, now: int, cookieDays: int, crypto: Crypto): Effect
  {
    SignupWith(SignupFieldsIntended(req.body), store, id, now, cookieDays, crypto)
  }

  /** As written, signup never creates an account: the required department
      is never passed, so validation always fails. */
  lemma SignupNeverCreates(req: Request, store: Store, id: string, now: int, cookieDays: int, crypto: Crypto)
    ensures Signup(req, store, id, now, cookieDays, crypto) == Effect(Error(Failure(Validation, None)), store)
  {
  }

  /** As intended, a complete signup with a fresh email creates one employee
      account holding the hash of the password, and logs it in with a 201. */
  lemma SignupIntendedCreates(req: Request, store: Store, id: string, now: int, cookieDays: int, crypto: Crypto)
    requires Present(req.body.name) && Present(req.body.email) && Present(req.body.department)
    requires PasswordValid(req.body.password) && req.body.passwordConfirm == req.body.password
    requires !EmailTaken(store, Some(Lower(req.body.email.value)))
    ensures var r := SignupIntended(req, store, id, now, cookieDays, crypto);
      && r.outcome.Respond? && r.outcome.status == 201
      && |r.store| == |store| + 1 && r.store[..|store|] == store
      && r.store[|store|].role == Employee
      && r.store[|store|].password == Some(crypto.hash(req.body.password.value))
      && r.store[|store|].passwordConfirm == None
  {
    var d := NewDoc(id, SignupFieldsIntended(req.body)).value;
    assert Valid(d);
  }
}

=== FILE: common.dfy ===
/** Shared vocabulary of the model: optional values, the failures that the
    handlers forward to the error middleware, and results of fallible steps. */
module Common {

  /** A JavaScript value that may be `undefined`. */
  datatype Option<T> = None | Some(value: T)

  /** The distinct error conditions of the core. Each one is either an
      application error raised with its own message by a controller, or an
      exception thrown by a collaborator and forwarded unchanged. */
  datatype Kind =
    | MissingCredentials    // login without an email or a password
    | IncorrectLogin        // login with an unknown email or a wrong password
    | NotLoggedIn           // neither a bearer header nor a jwt cookie
    | TokenRejected         // the token verifier threw (bad signature, expired, malformed)
    | UserGone              // the token's subject is missing or inactive
    | PasswordChanged       // the password changed after the token was issued
    | Forbidden             // the user's role is not in the allow-list
    | NoSuchEmail           // forgot-password for an email nobody has
    | EmailNotSent          // the reset e-mail could not be delivered
    | ResetTokenInvalid     // the reset token is unknown or expired
    | WrongCurrentPassword  // re-authentication failed when changing the password
    | Validation            // a schema validator rejected the document
    | DuplicateEmail        // the unique index on email rejected an insert
    | IllegalArguments      // the password hasher was handed a missing value
    | TypeError             // a property of a missing object was read, or a non-string was split

  /** An error handed to `next`: its kind and the HTTP status it carries, if
      any (`None` when the error object has no status of its own). */
  datatype Failure = Failure(kind: Kind, status: Option<int>)

  datatype Result<T> = Ok(value: T) | Err(failure: Failure)
}

=== FILE: text.dfy ===
/** String utilities with JavaScript's semantics: `split`/`join` on one
    character, ASCII lower-casing, prefixes and decimal integer literals. */
module Text {
  import opened Common

  predicate IsUpper(c: char) { 'A' <= c <= 'Z' }

  function LowerChar(c: char): char
  {
    if IsUpper(c) then (c as int + 32) as char else c
  }

  /** Lower-cases the ASCII letters of `s` and leaves every other character. */
  function Lower(s: string): (r: string)
    ensures |r| == |s|
    ensures forall i :: 0 <= i < |r| ==> !IsUpper(r[i])
    ensures forall i :: 0 <= i < |s| && !IsUpper(s[i]) ==> r[i] == s[i]
    ensures forall i :: 0 <= i < |s| && IsUpper(s[i]) ==> r[i] as int == s[i] as int + 32
  {
    seq(|s|, i requires 0 <= i < |s| => LowerChar(s[i]))
  }

  predicate StartsWith(s: string, prefix: string)
  {
    |prefix| <= |s| && s[..|prefix|] == prefix
  }

  /** `s.split(sep)`: the maximal separator-free pieces, in order; an empty
      string gives one empty piece. */
  function Split(s: string, sep: char): (parts: seq<string>)
    ensures |parts| >= 1
    ensures forall i :: 0 <= i < |parts| ==> sep !in parts[i]
    decreases |s|
  {
    if s == [] then [""]
    else
      var rest := Split(s[1..], sep);
      if s[0] == sep then [""] + rest
      else [[s[0]] + rest[0]] + rest[1..]
  }

  /** `parts.join(sep)`. */
  function Join(parts: seq<string>, sep: char): string
  {
    if |parts| == 0 then ""
    else if |parts| == 1 then parts[0]
    else parts[0] + [sep] + Join(parts[1..], sep)
  }

  /** Reference definition: every occurrence of `a` becomes `b`. */
  function ReplaceChar(s: string, a: char, b: char): (r: string)
    ensures |r| == |s|
    ensures forall i :: 0 <= i < |s| ==> r[i] == (if s[i] == a then b else s[i])
  {
    seq(|s|, i requires 0 <= i < |s| => if s[i] == a then b else s[i])
  }

  lemma ReplaceCharCons(s: string, a: char, b: char)
    requires s != []
    ensures ReplaceChar(s, a, b) == [if s[0] == a then b else s[0]] + ReplaceChar(s[1..], a, b)
  {
  }

  lemma JoinPrepend(c: char, rest: seq<string>, sep: char)
    requires |rest| >= 1
    ensures Join([[c] + rest[0]] + rest[1..], sep) == [c] + Join(rest, sep)
  {
    var parts := [[c] + rest[0]] + rest[1..];
    if |rest| > 1 {
      assert parts[1..] == rest[1..];
    }
  }

  /** `s.split(a).join(b)` replaces every `a` by `b`. */
  lemma {:induction false} JoinSplitReplaces(s: string, a: char, b: char)
    ensures Join(Split(s, a), b) == ReplaceChar(s, a, b)
    decreases |s|
  {
    if s != [] {
      var rest := Split(s[1..], a);
      JoinSplitReplaces(s[1..], a, b);
      ReplaceCharCons(s, a, b);
      if s[0] == a {
        assert Split(s, a) == [""] + rest;
        assert ([""] + rest)[1..] == rest;
      } else {
        JoinPrepend(s[0], rest, b);
      }
    }
  }

  /** Joining the pieces with the separator they were split on gives back the string. */
  lemma JoinSplitRoundTrip(s: string, sep: char)
    ensures Join(Split(s, sep), sep) == s
  {
    JoinSplitReplaces(s, sep, sep);
    assert ReplaceChar(s, sep, sep) == s;
  }

  /** A separator-free string splits into itself. */
  lemma {:induction false} SplitWithoutSep(x: string, sep: char)
    requires sep !in x
    ensures Split(x, sep) == [x]
    decreases |x|
  {
    if x != [] {
      SplitWithoutSep(x[1..], sep);
      assert [x[0]] + x[1..] == x;
    }
  }

  /** Splitting at the first separator: the first piece is everything before it. */
  lemma {:induction false} SplitAtFirst(x: string, sep: char, y: string)
    requires sep !in x
    ensures Split(x + [sep] + y, sep) == [x] + Split(y, sep)
    decreases |x|
  {
    var s := x + [sep] + y;
    if x == [] {
      assert s[1..] == y;
    } else {
      assert s[1..] == x[1..] + [sep] + y;
      SplitAtFirst(x[1..], sep, y);
      assert [x[0]] + x[1..] == x;
    }
  }

  /** A string has at least two pieces exactly when it contains the separator. */
  lemma {:induction false} SplitHasSecondPiece(s: string, sep: char)
    ensures |Split(s, sep)| >= 2 <==> sep in s
    decreases |s|
  {
    if s != [] {
      SplitHasSecondPiece(s[1..], sep);
      assert sep in s <==> s[0] == sep || sep in s[1..];
    }
  }

  // Decimal integer literals, the subset of JavaScript's numeric coercion
  // that the model keeps.

  predicate IsDigit(c: char) { '0' <= c <= '9' }

  predicate AllDigits(s: string) { forall i :: 0 <= i < |s| ==> IsDigit(s[i]) }

  function DigitValue(c: char): nat
    requires IsDigit(c)
  {
    c as int - '0' as int
  }

  function DigitChar(d: nat): (c: char)
    requires d < 10
    ensures IsDigit(c) && DigitValue(c) == d
  {
    ('0' as int + d) as char
  }

  function DigitsValue(d: string): nat
    requires AllDigits(d)
    decreases |d|
  {
    if |d| == 0 then 0 else 10 * DigitsValue(d[..|d| - 1]) + DigitValue(d[|d| - 1])
  }

  /** An optionally signed run of decimal digits; anything else is not a number. */
  function ParseInt(s: string): (r: Option<int>)
    ensures s == [] ==> r == None
    ensures r.Some? <==> (|s| > 0 && AllDigits(s)) || (|s| > 1 && (s[0] == '-' || s[0] == '+') && AllDigits(s[1..]))
    ensures r.Some? && r.value < 0 ==> s[0] == '-'
    ensures r.Some? && AllDigits(s) ==> r.value == DigitsValue(s)
  {
    if |s| > 0 && (s[0] == '-' || s[0] == '+') then
      var d := s[1..];
      if |d| > 0 && AllDigits(d) then
        var v: int := DigitsValue(d);
        Some(if s[0] == '-' then -v else v)
      else None
    else if |s| > 0 && AllDigits(s) then Some(DigitsValue(s))
    else None
  }

  function ShowNat(n: nat): (r: string)
    ensures |r| > 0 && AllDigits(r)
    decreases n
  {
    if n < 10 then [DigitChar(n)] else ShowNat(n / 10) + [DigitChar(n % 10)]
  }

  function ShowInt(n: int): string
  {
    if n < 0 then "-" + ShowNat(-n) else ShowNat(n)
  }

  lemma {:induction false} DigitsOfShowNat(n: nat)
    ensures DigitsValue(ShowNat(n)) == n
    decreases n
  {
    if n >= 10 {
      DigitsOfShowNat(n / 10);
      var s := ShowNat(n);
      assert s[..|s| - 1] == ShowNat(n / 10);
    }
  }

  /** Every integer printed in decimal parses back to itself. */
  lemma ParseShowInt(n: int)
    ensures ParseInt(ShowInt(n)) == Some(n)
  {
    if n < 0 {
      DigitsOfShowNat(-n);
      assert ("-" + ShowNat(-n))[1..] == ShowNat(-n);
    } else {
      DigitsOfShowNat(n);
    }
  }
}

=== FILE: user_model.dfy ===
/** The user record: its schema constraints, the two save hooks, the query
    hook that hides deactivated accounts, the password-change check against a
    token's issue time, and reset-token creation. Time is integer milliseconds
    since the epoch; the password hasher and SHA-256 are parameters. */
module UserModel {
  import opened Common
  import opened Text

  const MinPasswordLength := 8
  /** A reset token is valid for ten minutes. */
  const ResetWindowMs := 10 * 60 * 1000
  /** The password-change time is back-dated by one second. */
  const ChangeSkewMs := 1000
  const MsPerSecond := 1000

  datatype Role = Employee | Manager | Admin

  function RoleName(r: Role): string
  {
    match r
    case Employee => "employee"
    case Manager => "manager"
    case Admin => "admin"
  }

  /** The role enum: exactly the three role names are accepted. */
  function ParseRole(s: string): (r: Option<Role>)
    ensures r.Some? ==> RoleName(r.value) == s
    ensures r.None? ==> forall role: Role :: RoleName(role) != s
  {
    if s == "employee" then Some(Employee)
    else if s == "manager" then Some(Manager)
    else if s == "admin" then Some(Admin)
    else None
  }

  /** The role a new document gets: the default when none is given, the named
      role when it is one of the enum's values, a validation error otherwise. */
  function RoleFromInput(s: Option<string>): (r: Result<Role>)
    ensures s.None? ==> r == Ok(Employee)
    ensures s.Some? ==> (r.Ok? <==> exists role: Role :: RoleName(role) == s.value)
    ensures r.Ok? && s.Some? ==> RoleName(r.value) == s.value
    ensures r.Err? ==> r.failure == Failure(Validation, None)
  {
    match s
    case None => Ok(Employee)
    case Some(name) =>
      match ParseRole(name)
      case Some(role) => Ok(role)
      case None => Err(Failure(Validation, None))
  }

  /** A user document. `password` holds the hash once saved; `passwordConfirm`
      only lives in memory between assignment and save. */
  datatype User = User(
    id: string,
    name: Option<string>,
    email: Option<string>,
    department: Option<string>,
    password: Option<string>,
    passwordConfirm: Option<string>,
    role: Role,
    passwordChangedAt: Option<int>,
    passwordResetToken: Option<string>,
    passwordResetExpires: Option<int>,
    active: Option<bool>)

  /** The collection, in natural order. */
  type Store = seq<User>

  /** The query hook adds `active != false` to every find: only an explicit
      `false` hides a record; `true` and a missing flag keep it. */
  predicate Visible(u: User)
  {
    u.active != Some(false)
  }

  /** The three lookups the controllers make. */
  datatype Filter =
    | ById(id: string)
    | ByEmail(email: string)
    | ByResetToken(hash: string, now: int)

  predicate Matches(f: Filter, u: User)
  {
    match f
    case ById(id) => u.id == id
    case ByEmail(e) => u.email == Some(e)
    case ByResetToken(h, now) =>
      u.passwordResetToken == Some(h) && u.passwordResetExpires.Some? && u.passwordResetExpires.value > now
  }

  /** Index `i` holds the first visible record that the filter matches. */
  predicate IsFirstMatch(store: Store, f: Filter, i: int)
  {
    && 0 <= i < |store|
    && Visible(store[i])
    && Matches(f, store[i])
    && forall j :: 0 <= j < i ==> !(Visible(store[j]) && Matches(f, store[j]))
  }

  /** `findOne(filter)` / `findById(id)` after the query hook: the first
      visible match, or nothing. */
  function Find(store: Store, f: Filter): (r: Option<nat>)
    ensures r.Some? ==> IsFirstMatch(store, f, r.value)
    ensures r.None? ==> forall j :: 0 <= j < |store| ==> !(Visible(store[j]) && Matches(f, store[j]))
    decreases |store|
  {
    if store == [] then None
    else if Visible(store[0]) && Matches(f, store[0]) then Some(0)
    else
      match Find(store[1..], f)
      case None => None
      case Some(i) => Some(i + 1)
  }

  /** There is at most one first match. */
  lemma FirstMatchUnique(store: Store, f: Filter, i: int, k: int)
    requires IsFirstMatch(store, f, i) && IsFirstMatch(store, f, k)
    ensures i == k
  {
  }

  /** `parseInt(ms / 1000, 10)`: whole seconds, truncated toward zero. */
  function Seconds(ms: int): (r: int)
    ensures ms >= 0 ==> r * MsPerSecond <= ms < (r + 1) * MsPerSecond
    ensures ms < 0 ==> (r - 1) * MsPerSecond < ms <= r * MsPerSecond
  {
    if ms >= 0 then ms / MsPerSecond else -((-ms) / MsPerSecond)
  }

  /** Whether the password changed after a token issued at `iat` (seconds):
      never when no change is recorded; otherwise when the change falls in a
      later second than the token's. */
  function ChangedPasswordAfter(u: User, iat: int): (r: bool)
    ensures u.passwordChangedAt.None? ==> !r
    ensures u.passwordChangedAt.Some? && u.passwordChangedAt.value >= 0 ==>
      (r <==> (iat + 1) * MsPerSecond <= u.passwordChangedAt.value)
    ensures u.passwordChangedAt.Some? && u.passwordChangedAt.value < 0 ==>
      (r <==> iat * MsPerSecond < u.passwordChangedAt.value)
  {
    match u.passwordChangedAt
    case None => false
    case Some(t) => iat < Seconds(t)
  }

  /** Issues a reset token: `random` (the hex of 32 random bytes) is handed
      back in plain text, only its SHA-256 digest is stored, with an expiry
      ten minutes from `now`; nothing else in the record changes. */
  function CreatePasswordResetToken(u: User, random: string, sha256: string -> string, now: int): (r: (string, User))
    ensures r.0 == random
    ensures r.1.passwordResetToken == Some(sha256(r.0))
    ensures r.1.passwordResetExpires == Some(now + ResetWindowMs)
    ensures r.1.(passwordResetToken := u.passwordResetToken, passwordResetExpires := u.passwordResetExpires) == u
  {
    (random, u.(passwordResetToken := Some(sha256(random)), passwordResetExpires := Some(now + ResetWindowMs)))
  }

  /** The issued token is accepted by the reset lookup exactly until its expiry. */
  lemma ResetTokenLivesTenMinutes(u: User, random: string, sha256: string -> string, now: int, later: int)
    ensures var (plain, issued) := CreatePasswordResetToken(u, random, sha256, now);
      Matches(ByResetToken(sha256(plain), later), issued) <==> later < now + ResetWindowMs
  {
  }

  /** A document in memory: the record as loaded or built; whether it is new;
      whether its password path was selected; whether the password was
      assigned a different value; and the password the database holds. */
  datatype Doc = Doc(user: User, isNew: bool, passwordSelected: bool, passwordModified: bool, storedPassword: Option<string>)

  /** A record loaded by a find. The password is `select: false`, so it is in
      memory only when the query asked for `+password`. */
  function Load(u: User, withPassword: bool): Doc
  {
    Doc(if withPassword then u else u.(password := None), false, withPassword, false, u.password)
  }

  /** `doc.password = p; doc.passwordConfirm = c`. The path counts as modified
      when the new value differs from the one in memory. */
  function AssignPassword(d: Doc, password: Option<string>, confirm: Option<string>): Doc
  {
    d.(user := d.user.(password := password, passwordConfirm := confirm),
       passwordModified := d.passwordModified || password != d.user.password)
  }

  /** A required string: present and non-empty. */
  predicate Present(s: Option<string>)
  {
    s.Some? && s.value != ""
  }

  predicate PasswordValid(p: Option<string>)
  {
    Present(p) && |p.value| >= MinPasswordLength
  }

  predicate ConfirmValid(confirm: Option<string>, password: Option<string>)
  {
    Present(confirm) && confirm == password
  }

  /** Schema validation. Required paths are checked whenever they are in the
      document: name, email, department and passwordConfirm always, the
      password when the document is new, selected it, or assigned it. */
  predicate Valid(d: Doc)
  {
    && Present(d.user.name)
    && Present(d.user.email)
    && Present(d.user.department)
    && (d.isNew || d.passwordSelected || d.passwordModified ==> PasswordValid(d.user.password))
    && ConfirmValid(d.user.passwordConfirm, d.user.password)
  }

  /** First save hook: a modified password is replaced by its hash and the
      confirmation is dropped; hashing a missing password throws. */
  function HashHook(d: Doc, hash: string -> string): Result<Doc>
  {
    if !d.passwordModified then Ok(d)
    else
      match d.user.password
      case None => Err(Failure(IllegalArguments, None))
      case Some(p) => Ok(d.(user := d.user.(password := Some(hash(p)), passwordConfirm := None)))
  }

  /** Second save hook: a password change on an existing document records
      the change one second in the past. */
  function ChangedAtHook(d: Doc, now: int): Doc
  {
    if !d.passwordModified || d.isNew then d
    else d.(user := d.user.(passwordChangedAt := Some(now - ChangeSkewMs)))
  }

  /** What the database holds after the write: an unmodified password path
      is not written, so the stored hash stays. */
  function Persisted(d: Doc): User
  {
    if d.passwordModified then d.user else d.user.(password := d.storedPassword)
  }

  /** `doc.save()`, with or without validation: validators first, then the
      two hooks in order, then the write. */
  function Save(d: Doc, now: int, hash: string -> string, validate: bool): (r: Result<User>)
    ensures validate && !Valid(d) ==> r == Err(Failure(Validation, None))
    ensures !validate || Valid(d) ==> (r.Ok? <==> !(d.passwordModified && d.user.password.None?))
    ensures r.Ok? && validate && d.passwordModified ==>
      |d.user.password.value| >= MinPasswordLength && d.user.passwordConfirm == d.user.password
    ensures r.Ok? && !d.passwordModified ==>
      && r.value.password == d.storedPassword
      && r.value.passwordConfirm == d.user.passwordConfirm
      && r.value.passwordChangedAt == d.user.passwordChangedAt
    ensures r.Ok? && d.passwordModified ==>
      && r.value.password == Some(hash(d.user.password.value))
      && r.value.passwordConfirm == None
      && r.value.passwordChangedAt == (if d.isNew then d.user.passwordChangedAt else Some(now - ChangeSkewMs))
    ensures r.Ok? ==>
      r.value.(password := d.user.password, passwordConfirm := d.user.passwordConfirm,
               passwordChangedAt := d.user.passwordChangedAt) == d.user
  {
    if validate && !Valid(d) then Err(Failure(Validation, None))
    else
      match HashHook(d, hash)
      case Err(f) => Err(f)
      case Ok(hashed) => Ok(Persisted(ChangedAtHook(hashed, now)))
  }

  /** A save that does not touch the password leaves the password-change
      check unchanged for every token. */
  lemma SaveKeepsTokenValidity(d: Doc, now: int, hash: string -> string, validate: bool, iat: int)
    requires !d.passwordModified
    requires Save(d, now, hash, validate).Ok?
    ensures ChangedPasswordAfter(Save(d, now, hash, validate).value, iat) == ChangedPasswordAfter(d.user, iat)
  {
  }

  /** A token issued by `jwt.sign` (whose `iat` is the floor of the issue time
      in seconds) at or after one second before a password-changing save is
      not invalidated by that save; in particular the token issued right
      after the save is accepted. */
  lemma {:induction false} SaveKeepsFreshTokens(d: Doc, now: int, hash: string -> string, validate: bool, issuedAt: int)
    requires d.passwordModified && !d.isNew
    requires Save(d, now, hash, validate).Ok?
    requires now >= ChangeSkewMs
    requires issuedAt >= now - ChangeSkewMs
    ensures !ChangedPasswordAfter(Save(d, now, hash, validate).value, issuedAt / MsPerSecond)
  {
    var iat := issuedAt / MsPerSecond;
    assert iat * MsPerSecond <= issuedAt < (iat + 1) * MsPerSecond;
  }

  /** A token issued two seconds or more before a password-changing save is
      rejected afterwards. */
  lemma {:induction false} SaveInvalidatesOlderTokens(d: Doc, now: int, hash: string -> string, validate: bool, issuedAt: int)
    requires d.passwordModified && !d.isNew
    requires Save(d, now, hash, validate).Ok?
    requires issuedAt + 2 * MsPerSecond <= now
    ensures ChangedPasswordAfter(Save(d, now, hash, validate).value, issuedAt / MsPerSecond)
  {
    var iat := issuedAt / MsPerSecond;
    assert iat * MsPerSecond <= issuedAt;
  }

  /** The fields `User.create` receives. */
  datatype NewUser = NewUser(
    name: Option<string>,
    email: Option<string>,
    department: Option<string>,
    password: Option<string>,
    passwordConfirm: Option<string>,
    role: Option<string>,
    passwordChangedAt: Option<int>)

  /** The email as the schema's `lowercase` setter stores it. */
  function LowerEmail(e: Option<string>): (r: Option<string>)
    ensures r.Some? <==> e.Some?
    ensures r.Some? ==> |r.value| == |e.value| && forall i :: 0 <= i < |r.value| ==> !IsUpper(r.value[i])
  {
    match e
    case None => None
    case Some(s) => Some(Lower(s))
  }

  /** A new document: the email setter lower-cases, the role defaults to
      employee, `active` defaults to true, no reset token is set, every other
      field is the input's, and a given password counts as modified. */
  function NewDoc(id: string, input: NewUser): (r: Result<Doc>)
    ensures r.Ok? <==> RoleFromInput(input.role).Ok?
    ensures r.Err? ==> r.failure == Failure(Validation, None)
    ensures r.Ok? ==> r.value.isNew && r.value.user.id == id && r.value.user.active == Some(true)
    ensures r.Ok? ==> r.value.user.role == RoleFromInput(input.role).value
    ensures r.Ok? && input.role.None? ==> r.value.user.role == Employee
    ensures r.Ok? ==> r.value.user.email == LowerEmail(input.email)
    ensures r.Ok? ==>
      && r.value.user.name == input.name
      && r.value.user.department == input.department
      && r.value.user.password == input.password
      && r.value.user.passwordConfirm == input.passwordConfirm
      && r.value.user.passwordChangedAt == input.passwordChangedAt
      && r.value.user.passwordResetToken.None?
      && r.value.user.passwordResetExpires.None?
    ensures r.Ok? ==> (r.value.passwordModified <==> input.password.Some?)
  {
    match RoleFromInput(input.role)
    case Err(f) => Err(f)
    case Ok(role) =>
      var u := User(id, input.name, LowerEmail(input.email), input.department, input.password, input.passwordConfirm,
                    role, input.passwordChangedAt, None, None, Some(true));
      Ok(Doc(u, true, true, input.password.Some?, None))
  }

  /** The unique index on email spans every record, deactivated ones too. */
  predicate EmailTaken(store: Store, email: Option<string>)
  {
    exists i | 0 <= i < |store| :: store[i].email == email
  }

  /** `User.create(input)`: build, validate, run the hooks, then insert
      subject to the unique email index. It succeeds exactly when the role is
      valid, the new document validates and its lower-cased email is not yet
      taken; the new record is the input with the email lower-cased, the
      password replaced by its hash, the confirmation dropped, the role
      defaulted and the account active. */
  function Create(store: Store, id: string, input: NewUser, now: int, hash: string -> string): (r: Result<Store>)
    ensures r.Ok? <==>
      && RoleFromInput(input.role).Ok?
      && Valid(NewDoc(id, input).value)
      && !EmailTaken(store, LowerEmail(input.email))
    ensures RoleFromInput(input.role).Ok? && Valid(NewDoc(id, input).value) && EmailTaken(store, LowerEmail(input.email)) ==>
      r == Err(Failure(DuplicateEmail, None))
    ensures r.Ok? ==> |r.value| == |store| + 1 && r.value[..|store|] == store
    ensures r.Ok? ==>
      var u := r.value[|store|];
      && input.password.Some?
      && |input.password.value| >= MinPasswordLength
      && input.passwordConfirm == input.password
      && u == User(id, input.name, LowerEmail(input.email), input.department, Some(hash(input.password.value)), None,
                   RoleFromInput(input.role).value, input.passwordChangedAt, None, None, Some(true))
      && Present(u.department)
    ensures input.department.None? ==> r == Err(Failure(Validation, None))
  {
    match NewDoc(id, input)
    case Err(f) => Err(f)
    case Ok(d) =>
      match Save(d, now, hash, true)
      case Err(f) => Err(f)
      case Ok(u) =>
        if EmailTaken(store, u.email) then Err(Failure(DuplicateEmail, None))
        else Ok(store + [u])
  }
}
